=== FILE: README.md ===
# Compedia CSV company import, modelled in Dafny

Compedia imports companies and their addresses from a CSV file. One row holds
one company (name, registration number) and one of its addresses (street,
city, postal code, country). The import runs in two stages:

- **Reader** (`Companies::Reader#perform`) checks the header row
  (`Companies::CsvValidator#validate!`), then validates every data row
  (`Companies::DataValidator#validate`, which applies the `Company` and
  `Address` model validations). It returns the companies to insert
  (the first row wins for each registration number), every valid row's
  address, and one `{line, errors}` entry per invalid row. A malformed file
  or missing headers become a single line-0 error.
- **Creator** (`Companies::Creator#perform`) bulk-inserts the companies,
  links each address to the id of the inserted company with the same
  registration number, bulk-inserts the linked addresses, and raises
  `BulkInsertError` when either insert reported failed records.

The model is a set of pure functions over immutable values:

| file | module | models |
|---|---|---|
| values.dfy | `Values` | `Option`, a nullable CSV cell, Rails `blank?`, the `errors.full_messages` list |
| ruby_integer.dfy | `RubyInteger` | Ruby `String#to_i` and `Integer#to_s` |
| csv_validator.dfy | `CsvValidator` | the required headers, `Array#-`, the error message |
| records.dfy | `Records` | a CSV row, company and address attribute hashes, row errors |
| company.dfy | `CompanyModel` | `Company` validations and their full messages |
| address.dfy | `AddressModel` | `Address` validations and their full messages |
| data_validator.dfy | `DataValidator` | one row's verdict |
| reader.dfy | `Reader` | the row loop, first-wins deduplication, the rescue |
| creator.dfy | `Creator` | the id map, address linking, the failure gate |
| scenarios.dfy | `Scenarios` | the Ruby specs' examples, stated for any rows of the same shape, and a duplicate-number file |

Choices made while modelling:

- `registration_number` is an integer column
  (db/migrate/20241220143936_create_companies.rb line 5). The model therefore
  casts the cell as Rails does: a blank cell becomes `nil`, anything else
  goes through `String#to_i`. Uniqueness asks whether that integer is in the
  set of numbers already stored. The Reader, by contrast, deduplicates on
  the raw cell text, so `"7"` and `"007"` are two companies to the Reader.
- `DataValidator#validate` tests `company.valid? && address.valid?`. Ruby's
  `&&` short-circuits, so when the company is invalid the address is never
  validated and its messages are never collected. The model follows the
  code. The Ruby spec spec/services/companies/data_validator_spec.rb
  (line 47) expects both "Name can't be blank" and "City can't be blank" for a
  row with an empty name and an empty city. Under the code as written only
  the first message appears; `Scenarios.EmptyNameAndCity` states this.
- `CsvValidator#validate!` reads the whole file with `CSV.read`, so a
  malformed file fails there, before any row is processed. `Reader.Perform`
  therefore returns only the line-0 error for a malformed file. The rescue
  path, which keeps row errors gathered before the failure, is modelled by
  `Reader.ReadRows`.
- The bulk inserts are function parameters. They return the inserted rows
  (or nothing) plus the failed records, or raise. `Creator.Perform` returns
  the insert calls it made together with the outcome.
- Returned registration numbers are modelled as database scalars (integer,
  text, or null). The lookup key is always the integer `to_i` of the
  address's number, so only integer-typed returned numbers ever match.

## Model

| member | source | states |
|---|---|---|
| CsvValidator.Difference | app/services/companies/csv_validator.rb:13 | `Array#-`: an element is in the result exactly when it is in the left list and not in the right |
| CsvValidator.MissingHeaders | app/services/companies/csv_validator.rb:12-13 | a required header is missing exactly when the header row lacks it; no header row counts as empty |
| CsvValidator.ValidateHeaders | app/services/companies/csv_validator.rb:11-18 | headers pass exactly when all six required names are present; a failure message begins "Missing required headers: " |
| CsvValidator.Join | app/services/companies/csv_validator.rb:16 | `join(', ')` of no names is empty; a joined list starts with its first name, followed by the separator when more follow |
| CsvValidator.MessageListsMissingHeaders | app/services/companies/csv_validator.rb:15-16 | parsing the failure message as the prefix and a `", "`-separated list gives back exactly the missing headers, in required order |
| CsvValidator.UnspacedSeparatorRejected | app/services/companies/csv_validator.rb:16 | the message parser insists on the `", "` separator: names joined by a bare comma are not read back as a list |
| CsvValidator.ListedJoin | app/services/companies/csv_validator.rb:16 | any non-empty list of comma-free names, joined with `", "` after the prefix, is read back as that list |
| CsvValidator.DifferenceAppend | app/services/companies/csv_validator.rb:13 | `Array#-` keeps the left operand's order: it distributes over concatenation |
| CsvValidator.DifferenceMembersOnly | app/services/companies/csv_validator.rb:13 | `Array#-` depends only on which elements the right operand holds |
| CsvValidator.HeaderOrderIrrelevant | app/services/companies/csv_validator.rb:12-17 | two header rows with the same names, in any order or multiplicity, get the same verdict |
| CsvValidator.NoHeaderRowMissesAll | app/services/companies/csv_validator.rb:13 | a file with no header row misses all six required headers, in their listed order |
| CsvValidator.DifferenceNothing | app/services/companies/csv_validator.rb:13 | subtracting the empty list leaves a list unchanged |
| Records.Cell | app/services/companies/data_validator.rb:23-38 | a row lookup yields the stored text when the column exists and nil otherwise |
| RubyInteger.SkipSpace | app/services/companies/creator.rb:60 | `to_i` skips exactly the leading whitespace |
| RubyInteger.DigitRunOfNumeral | app/services/companies/creator.rb:60 | the numeral `to_i` reads from `p + q` is all of `p`, underscores dropped, when `p` is a numeral and `q` cannot continue it |
| RubyInteger.ShowNat | app/services/companies/creator.rb:60 | an integer prints as a non-empty digit string without a leading zero |
| RubyInteger.DecimalValueOfShowNat | app/services/companies/creator.rb:60 | reading back the printed digits of a natural number gives that number |
| RubyInteger.ToI | app/services/companies/creator.rb:60 | `to_i` of blank text is 0 |
| RubyInteger.ToIWithoutDigits | app/services/companies/creator.rb:60 | `to_i` of text with no digit at all is 0 |
| RubyInteger.ToIWithoutLeadingDigit | app/services/companies/creator.rb:60 | `to_i` is 0 when the first character after leading whitespace and an optional sign is not a digit, whatever follows ("abc123") |
| RubyInteger.ToIOfNumeral | app/services/companies/creator.rb:60 | `to_i` skips leading whitespace, reads the numeral's value, and ignores any text after the numeral |
| RubyInteger.ToIOfSignedNumeral | app/services/companies/creator.rb:60 | after leading whitespace, a `-` sign negates the numeral's value and a `+` sign keeps it |
| RubyInteger.ToIOfShow | app/services/companies/creator.rb:60 | `n.to_s.to_i == n` for every integer, negative ones included |
| Values.FullMessages | app/models/company.rb:4-5 | `errors.full_messages` lists nothing exactly when every rule passes, and a message exactly when some failing rule adds it |
| Values.FullMessagesAppend | app/models/company.rb:4-5 | running two lists of rules one after the other lists the first list's messages, then the second's, in rule order |
| Values.FourRuleMessages | app/models/company.rb:4-5 | with four distinct messages, each is listed exactly when its own rule fails |
| CompanyModel.CastRegistrationNumber | db/migrate/20241220143936_create_companies.rb:5 | the integer attribute is `nil` exactly when the assigned text is blank |
| CompanyModel.CompanyErrors | app/models/company.rb:4-5 | no messages exactly when the company is valid; each of the four messages appears exactly when its rule is broken |
| CompanyModel.BlankNumberNeverTaken | app/models/company.rb:5 | a blank number is reported as blank and never as taken |
| CompanyModel.TakenComparesIntegers | app/models/company.rb:5 | uniqueness compares the integer value: the printed form of a stored number is taken |
| CompanyModel.TakenForAnyNumeral | app/models/company.rb:5 | any text `to_i` reads as a numeral is taken exactly when that numeral's integer is stored, so "007" collides with 7 |
| CompanyModel.NameLengthBoundary | app/models/company.rb:4 | 256 characters pass the length rule and 257 fail it |
| AddressModel.AddressErrors | spec/models/address_spec.rb:7-35 | no messages exactly when the address is valid; each presence message appears exactly when its field is blank or the company is absent |
| AddressModel.OnlyStreetCityCountryChecked | spec/models/address_spec.rb:7-35 | the postal code and registration number never affect the address messages |
| DataValidator.CompanyAttributes | app/services/companies/data_validator.rb:23-28 | the company hash takes `name` and `registration_number` from the row's cells, `nil` for a missing cell |
| DataValidator.AddressAttributes | app/services/companies/data_validator.rb:30-38 | the address hash takes street, city, postal code, country and registration number from the row's cells, `nil` for a missing cell |
| DataValidator.Validate | app/services/companies/data_validator.rb:8-17 | a row is valid exactly when its company and its attached address are both valid; a valid row copies its cells verbatim; an invalid row carries its own line and at least one message |
| DataValidator.FailureMessages | app/services/companies/data_validator.rb:12-15 | an invalid row's messages are the company's messages, then the address's only when the company passed |
| DataValidator.InvalidCompanyHidesAddressMessages | app/services/companies/data_validator.rb:12 | when the company is invalid, every message is a company message |
| DataValidator.CompanyAlwaysAttached | app/services/companies/data_validator.rb:10 | "Company must exist" is never reported, since the address is always built with its company |
| Reader.ProcessRow | app/services/companies/reader.rb:35-47 | one row appends to exactly one of addresses and errors, adds at most one company, and keeps company numbers distinct |
| Reader.ProcessRows | app/services/companies/reader.rb:29-33 | every row lands in addresses or errors, and there are no more companies than addresses, all with distinct numbers |
| Reader.Rescue | app/services/companies/reader.rb:16-18 | the rescue drops both record lists and appends one line-0 "Malformed CSV file: " error after the errors already gathered |
| Reader.ReadRows | app/services/companies/reader.rb:15-18 | a completed read accounts for every row; a parse failure leaves no records and ends the errors with the line-0 error |
| Reader.StructuralError | app/services/companies/reader.rb:14-16 | `validate!` fails exactly when the file is malformed or headers are missing; a parse failure takes precedence, and a header failure carries the "Missing required headers: " message |
| Reader.Perform | app/services/companies/reader.rb:12-22 | a header or parse failure yields no data and one line-0 "Malformed CSV file: " error; otherwise every row is accounted for |
| Reader.FirstWinsKeys | app/services/companies/reader.rb:42 | `||=` keeps exactly the registration numbers that some valid row had |
| Reader.FirstWinsDistinct | app/services/companies/reader.rb:42 | `||=` keeps one company per registration number |
| Reader.FirstWinsElements | app/services/companies/reader.rb:42 | each kept company is the first valid row with its number, and every such first row is kept |
| Reader.FirstWinsCount | app/services/companies/reader.rb:42 | there are as many kept companies as distinct numbers |
| Reader.ProcessRowsIsReference | app/services/companies/reader.rb:29-47 | the row loop equals the reference: first-wins companies, all valid addresses, all invalid rows, each in row order |
| Reader.PerformMatchesReference | app/services/companies/reader.rb:12-22 | a well-formed file's result equals that reference |
| Reader.RowAccounting | app/services/companies/reader.rb:21 | on a well-formed file, addresses plus errors equal the number of rows |
| Reader.FirstRowSuppliesCompany | app/services/companies/reader.rb:42 | every returned company is the first valid row with its number |
| Reader.RowErrorLines | app/services/companies/reader.rb:29-46 | the errors are the invalid rows' verdicts, numbered from 1 in strictly increasing line order, and no invalid row is missing |
| Reader.MalformedKeepsRowErrors | app/services/companies/reader.rb:16-18 | a parse failure during the row loop keeps the row errors gathered so far and appends the line-0 error |
| Reader.MalformedFileReportsOnlyStructuralError | app/services/companies/reader.rb:14-18 | a malformed file yields exactly one line-0 error and no data |
| Reader.HeaderFailureIgnoresRows | app/services/companies/reader.rb:14-18 | with missing headers the rows do not matter, and the single error lists the missing headers |
| Creator.CompanyIdMap | app/services/companies/creator.rb:40 | a `nil` insert result gives the empty map; otherwise there is a key exactly for each returned registration number |
| Creator.LookupKey | app/services/companies/creator.rb:60 | the lookup key is always an integer, and 0 for a `nil` number (`nil.to_i`) |
| Creator.IndexBy | app/services/companies/creator.rb:40 | `index_by` has a key exactly for each returned registration number |
| Creator.IndexByKeepsLast | app/services/companies/creator.rb:40 | the last returned row with a given number is the one indexed |
| Creator.IndexByValuesAreLast | app/services/companies/creator.rb:40 | every indexed row is the last returned row with its number |
| Creator.MapAddressesToCompanies | app/services/companies/creator.rb:58-71 | every linked address comes from an input address and the id found under its number; none that can be linked is lost; the result is empty exactly when none can be linked |
| Creator.MapAddressesAppend | app/services/companies/creator.rb:59-70 | linking is done address by address, in input order |
| Creator.Gate | app/services/companies/creator.rb:51-55 | `BulkInsertError` exactly when a failure list is non-empty, carrying those lists; otherwise the ids are exactly those in the id map |
| Creator.Perform | app/services/companies/creator.rb:30-56 | nothing is inserted and `[]` is returned when there are no companies; companies are inserted first; an exception from the company insert ends the run with that insert as the only call and the exception propagated (`Raised`); addresses are inserted exactly when at least one links |
| Creator.FailureGate | app/services/companies/creator.rb:51 | after both inserts, the outcome is `BulkInsertError` exactly when a failure was reported |
| Creator.StringKeysNeverLink | app/services/companies/creator.rb:40-60 | when the returned numbers are text, no address links and no address insert happens |
| Creator.NilResultDropsAllAddresses | app/services/companies/creator.rb:40 | a nil insert result gives an empty id map, so every address is dropped |
| Creator.IntegerKeysLinkEveryAddress | app/services/companies/creator.rb:40-60 | when every address's integer number was returned, every address is linked |
| Creator.AllLinkableKeepsLength | app/services/companies/creator.rb:58-71 | when every address can be linked, none is dropped |
| Creator.PrintedNumberLinks | app/services/companies/creator.rb:60 | an address whose number is the printed form of a returned integer links to it |
| Creator.CreatedNamesEveryInsertedCompany | app/services/companies/creator.rb:53-55 | with no failures and distinct returned numbers, the result names every returned company id |
| Scenarios.EmptyNameAndCity | spec/services/companies/data_validator_spec.rb:36-48 | a row with empty name and city fails on its own line with "Name can't be blank" but without the city message |
| Scenarios.FilledRowValid | spec/services/companies/data_validator_spec.rb:17-33 | a row with every required cell filled is valid, and both hashes copy its cells |
| Scenarios.TwoValidRows | spec/services/companies/reader_spec.rb:15-105 | two valid rows with different numbers give both companies and both addresses, in file order, and no errors |
| Scenarios.OneInvalidRow | spec/services/companies/reader_spec.rb:107-141 | a file whose only row is invalid gives no records and exactly that row's error |
| Scenarios.DuplicateNumberKeepsFirstCompany | app/services/companies/reader.rb:42-43 | three valid rows where the first two share a number give the first and third companies and all three addresses |

## Left out

- File I/O and CSV parsing: the file is given as its parsed header row, its rows and whether parsing ended in `CSV::MalformedCSVError`.
- A missing file (`Errno::ENOENT`) is not rescued by the Reader and propagates; it is outside the model, which starts from a parsed file.
- Ruby's `CSV.foreach` yields rows with duplicate headers and extra columns; a row is modelled as a map from header to text, so duplicate headers collapse.
- `Reader::InvalidHeadersError` is declared but never raised; it is not modelled.
- The database transaction and rollback, and the inserts themselves, are not modelled: the inserts are parameters, and an exception they raise becomes `Creator.Raised`.
- `Creator.Perform`: the final `Company.includes(:addresses).where(id: …)` query is modelled as the set of ids it selects, not as loaded records.
- `Rails.error.report` in `handle_bulk_insert_error` is a logging side effect and is not modelled.
- `Creator.Perform`: the `BulkInsertError` outcome is the `Companies::Creator::BulkInsertError` raised at app/services/companies/creator.rb:51, which propagates out of `perform` unchanged. The `rescue ActiveRecord::BulkInsertError` clause at line 22 names a different class, which nothing in the repository's visible source defines (it would come from the gem providing `bulk_insert`, which is not part of this model). So `handle_bulk_insert_error` is never reached by the line-51 error. If that constant is undefined, Ruby raises `NameError` when it evaluates the rescue clause for any exception leaving the transaction; the model does not represent that.
- `on_duplicate: :skip` is the insert's own behaviour: which companies the database returns is the parameter's choice.
- Timestamps and the `limit: 256` and `null: false` column constraints of the migrations are not modelled beyond the model validations.
- `AddressModel.AddressErrors`: the Address model file is not part of this model; its rules are taken from spec/models/address_spec.rb, and the order of its messages (company, street, city, country) is assumed.
- RubyInteger.ToI: Ruby's base-10 `to_i` also skips a `0d` prefix (`"0d12".to_i` is 12); the model reads such text as 0. Registration numbers that are printed integers never carry it.
- `CompanyModel.CastRegistrationNumber`: the 4-byte range of the integer column is not modelled, so numbers are unbounded. A number outside ±2^31 passes validation: its uniqueness query matches nothing, so it is reported neither blank nor taken, which the model also gives. Only the insert, a parameter here, rejects it.
- The HTTP controller that calls the Reader and the Creator is not modelled.

=== FILE: address.dfy ===
/** The validations of the `Address` model: street, city and country present,
    and the address belongs to a company. The postal code is unconstrained. */
module AddressModel {
  import opened Values
  import opened Records

  const CompanyMissing: string := "Company must exist"
  const StreetBlank: string := "Street can't be blank"
  const CityBlank: string := "City can't be blank"
  const CountryBlank: string := "Country can't be blank"

  /** `address.valid?`, where `companyAttached` says whether a company object
      was given for the `belongs_to` association. */
  predicate IsValid(a: AddressAttrs, companyAttached: bool) {
    companyAttached && !Blank(a.street) && !Blank(a.city) && !Blank(a.country)
  }

  /** The four messages differ from one another. */
  lemma MessagesDistinct()
    ensures CompanyMissing != StreetBlank && CompanyMissing != CityBlank && CompanyMissing != CountryBlank
    ensures StreetBlank != CityBlank && StreetBlank != CountryBlank && CityBlank != CountryBlank
  {
    assert |CompanyMissing| == 18 && |StreetBlank| == 21;
    assert |CityBlank| == 19 && |CountryBlank| == 22;
  }

  /** `address.errors.full_messages` after `valid?`. */
  function AddressErrors(a: AddressAttrs, companyAttached: bool): (r: seq<string>)
    ensures |r| == 0 <==> IsValid(a, companyAttached)
    ensures CompanyMissing in r <==> !companyAttached
    ensures StreetBlank in r <==> Blank(a.street)
    ensures CityBlank in r <==> Blank(a.city)
    ensures CountryBlank in r <==> Blank(a.country)
    ensures forall m :: m in r ==> m == CompanyMissing || m == StreetBlank || m == CityBlank || m == CountryBlank
  {
    MessagesDistinct();
    var rules := [
      Rule(companyAttached, CompanyMissing),
      Rule(!Blank(a.street), StreetBlank),
      Rule(!Blank(a.city), CityBlank),
      Rule(!Blank(a.country), CountryBlank)
    ];
    FourRuleMessages(rules[0], rules[1], rules[2], rules[3]);
    FourRuleBounds(rules[0], rules[1], rules[2], rules[3]);
    FullMessages(rules)
  }

  /** No rule reads the postal code or the registration number. */
  lemma OnlyStreetCityCountryChecked(a: AddressAttrs, postalCode: Field, registrationNumber: Field, companyAttached: bool)
    ensures AddressErrors(a.(postalCode := postalCode, registrationNumber := registrationNumber), companyAttached)
            == AddressErrors(a, companyAttached)
  {
  }
}

=== FILE: company.dfy ===
/** The validations of the `Company` model: a present name of at most 256
    characters, and a present registration number not yet stored. */
module CompanyModel {
  import opened Values
  import opened Records
  import RubyInteger

  const NameMaximum: nat := 256

  const NameBlank: string := "Name can't be blank"
  const NameTooLong: string := "Name is too long (maximum is 256 characters)"
  const RegistrationNumberBlank: string := "Registration number can't be blank"
  const RegistrationNumberTaken: string := "Registration number has already been taken"

  /** The registration numbers of the companies already stored. The column is
      an integer column, so these are integers. */
  type Store = set<int>

  /** The value of the integer `registration_number` attribute after Rails
      casts the assigned string: `nil` for a blank string, otherwise `to_i`. */
  function CastRegistrationNumber(f: Field): (n: Option<int>)
    ensures n.None? <==> Blank(f)
  {
    if Blank(f) then None else Some(RubyInteger.ToI(f.value))
  }

  predicate NamePresent(c: CompanyAttrs) {
    !Blank(c.name)
  }

  predicate NameWithinLimit(c: CompanyAttrs) {
    CharLength(c.name) <= NameMaximum
  }

  predicate RegistrationNumberPresent(c: CompanyAttrs) {
    CastRegistrationNumber(c.registrationNumber).Some?
  }

  /** The uniqueness rule looks the cast value up among the stored ones; no
      stored row has a `nil` number, so a blank number is never taken. */
  predicate RegistrationNumberUnique(c: CompanyAttrs, store: Store) {
    match CastRegistrationNumber(c.registrationNumber)
    case None => true
    case Some(n) => n !in store
  }

  /** `company.valid?` */
  predicate IsValid(c: CompanyAttrs, store: Store) {
    && NamePresent(c)
    && NameWithinLimit(c)
    && RegistrationNumberPresent(c)
    && RegistrationNumberUnique(c, store)
  }

  /** The four messages differ from one another. */
  lemma MessagesDistinct()
    ensures NameBlank != NameTooLong && NameBlank != RegistrationNumberBlank
    ensures NameBlank != RegistrationNumberTaken && NameTooLong != RegistrationNumberBlank
    ensures NameTooLong != RegistrationNumberTaken && RegistrationNumberBlank != RegistrationNumberTaken
  {
    assert |NameBlank| == 19 && |NameTooLong| == 44;
    assert |RegistrationNumberBlank| == 34 && |RegistrationNumberTaken| == 42;
  }

  /** `company.errors.full_messages` after `valid?`. */
  function CompanyErrors(c: CompanyAttrs, store: Store): (r: seq<string>)
    ensures |r| == 0 <==> IsValid(c, store)
    ensures NameBlank in r <==> !NamePresent(c)
    ensures NameTooLong in r <==> !NameWithinLimit(c)
    ensures RegistrationNumberBlank in r <==> !RegistrationNumberPresent(c)
    ensures RegistrationNumberTaken in r <==> !RegistrationNumberUnique(c, store)
    ensures forall m :: m in r ==>
              m == NameBlank || m == NameTooLong || m == RegistrationNumberBlank || m == RegistrationNumberTaken
    ensures |r| <= 4
  {
    MessagesDistinct();
    var rules := [
      Rule(NamePresent(c), NameBlank),
      Rule(NameWithinLimit(c), NameTooLong),
      Rule(RegistrationNumberPresent(c), RegistrationNumberBlank),
      Rule(RegistrationNumberUnique(c, store), RegistrationNumberTaken)
    ];
    FourRuleMessages(rules[0], rules[1], rules[2], rules[3]);
    FourRuleBounds(rules[0], rules[1], rules[2], rules[3]);
    FullMessages(rules)
  }

  /** A registration number is blank exactly when the string is, so a present
      number can still be taken, but a blank one only ever reports blankness. */
  lemma BlankNumberNeverTaken(c: CompanyAttrs, store: Store)
    requires Blank(c.registrationNumber)
    ensures RegistrationNumberBlank in CompanyErrors(c, store)
    ensures RegistrationNumberTaken !in CompanyErrors(c, store)
  {
  }

  /** The uniqueness rule compares integers: a number is taken when its
      integer value is stored, whatever text it was assigned from; here the
      text is the canonical spelling `n.to_s`. */
  lemma TakenComparesIntegers(c: CompanyAttrs, store: Store, n: int)
    requires !Blank(c.registrationNumber)
    requires c.registrationNumber.value == RubyInteger.Show(n)
    ensures RegistrationNumberTaken in CompanyErrors(c, store) <==> n in store
  {
    RubyInteger.ToIOfShow(n);
  }

  /** Any spelling `to_i` reads as a numeral collides with the stored integer
      it denotes: leading whitespace, leading zeros, underscores between digits
      and trailing text all drop out, so "007" is taken when 7 is stored. */
  lemma TakenForAnyNumeral(c: CompanyAttrs, store: Store, ws: string, p: string, q: string)
    requires forall i :: 0 <= i < |ws| ==> RubyInteger.IsLeadingSpace(ws[i])
    requires RubyInteger.Numeral(p) && RubyInteger.EndsNumeral(q)
    requires c.registrationNumber == Some(ws + p + q)
    ensures RegistrationNumberTaken in CompanyErrors(c, store)
            <==> RubyInteger.DecimalValue(RubyInteger.DigitsOf(p)) in store
  {
    var s := ws + p + q;
    RubyInteger.ToIOfNumeral(ws, p, q);
    assert s[|ws|] == p[0] && RubyInteger.IsDigit(s[|ws|]);
    assert !IsSpace(s[|ws|]);
    assert !Blank(c.registrationNumber);
  }

  /** A name of 257 characters is too long; one of at most 256 passes the
      length rule. */
  lemma NameLengthBoundary(c: CompanyAttrs, store: Store)
    requires c.name.Some?
    ensures |c.name.value| == 257 ==> NameTooLong in CompanyErrors(c, store)
    ensures |c.name.value| <= 256 ==> NameTooLong !in CompanyErrors(c, store)
  {
  }
}

=== FILE: creator.dfy ===
/** The bulk writer: inserts the companies, maps each registration number to
    the inserted row, re-keys every address to its company's id (dropping those
    without one), inserts the addresses, and fails when either insert reported
    failed records. The database inserts are inputs to the model. */
module Creator {
  import opened Values
  import opened Records
  import RubyInteger

  /** A column value as the database driver hands it back. */
  datatype Scalar = Int(i: int) | Text(s: string) | Nil

  /** One row of the company insert's `returning: %w[id registration_number]`. */
  datatype InsertedRow = InsertedRow(id: int, registrationNumber: Scalar)

  /** An address ready for insertion, pointing at its company by id. */
  datatype LinkedAddress = LinkedAddress(street: Field, city: Field, postalCode: Field, country: Field, companyId: int)

  /** What the company insert does: return the inserted rows (possibly `nil`)
      while reporting failed records to the error handler, or raise. */
  datatype CompanyInsert =
    | CompaniesInserted(returned: Option<seq<InsertedRow>>, failed: seq<CompanyAttrs>)
    | CompanyInsertRaised(message: string)

  /** What the address insert does: report failed records, or raise. */
  datatype AddressInsert =
    | AddressesInserted(failed: seq<LinkedAddress>)
    | AddressInsertRaised(message: string)

  /** `@failed_records`: `{companies: [], addresses: []}` */
  datatype FailedRecords = FailedRecords(companies: seq<CompanyAttrs>, addresses: seq<LinkedAddress>)

  /** An insert the writer issued, with the records it passed. */
  datatype InsertCall = InsertCompanies(companies: seq<CompanyAttrs>) | InsertAddresses(addresses: seq<LinkedAddress>)

  datatype Outcome =
    | Created(companyIds: set<int>)      // the companies to reload with their addresses
    | BulkInsertError(failed: FailedRecords)
    | Raised(message: string)            // an exception of an insert, propagated

  /** The writer's outcome and the inserts it attempted, in order. */
  datatype Run = Run(calls: seq<InsertCall>, outcome: Outcome)

  // ---------------------------------------------------------------------------
  // The registration-number map

  /** `index_by { |record| record["registration_number"] }`: a later row with
      the same key replaces an earlier one. */
  function IndexBy(rows: seq<InsertedRow>): (m: map<Scalar, InsertedRow>)
    ensures forall k :: k in m <==> exists i :: 0 <= i < |rows| && rows[i].registrationNumber == k
  {
    if |rows| == 0 then map[]
    else
      var p := rows[..|rows| - 1];
      var last := rows[|rows| - 1];
      assert forall i :: 0 <= i < |p| ==> p[i] == rows[i];
      IndexBy(p)[last.registrationNumber := last]
  }

  /** The row kept for a key is the last returned row with that key. */
  predicate IsLastOfKey(rows: seq<InsertedRow>, i: int)
    requires 0 <= i < |rows|
  {
    forall j :: i < j < |rows| ==> rows[j].registrationNumber != rows[i].registrationNumber
  }

  /** `index_by` keeps, for every key, the last returned row with that key. */
  lemma {:induction false} IndexByKeepsLast(rows: seq<InsertedRow>)
    ensures forall i :: 0 <= i < |rows| && IsLastOfKey(rows, i) ==>
              IndexBy(rows)[rows[i].registrationNumber] == rows[i]
  {
    if |rows| > 0 {
      var n := |rows|;
      var p := rows[..n - 1];
      var last := rows[n - 1];
      IndexByKeepsLast(p);
      forall i | 0 <= i < n && IsLastOfKey(rows, i)
        ensures IndexBy(rows)[rows[i].registrationNumber] == rows[i]
      {
        if i < n - 1 {
          assert rows[i] == p[i];
          assert IsLastOfKey(p, i);
          assert rows[i].registrationNumber != last.registrationNumber;
        }
      }
    }
  }

  /** Every row `index_by` keeps is the last returned row with its key. */
  lemma IndexByValuesAreLast(rows: seq<InsertedRow>)
    ensures forall k :: k in IndexBy(rows) ==>
              exists i :: 0 <= i < |rows| && IsLastOfKey(rows, i) && rows[i] == IndexBy(rows)[k]
  {
    IndexByKeepsLast(rows);
    forall k | k in IndexBy(rows)
      ensures exists i :: 0 <= i < |rows| && IsLastOfKey(rows, i) && rows[i] == IndexBy(rows)[k]
    {
      var i :| 0 <= i < |rows| && rows[i].registrationNumber == k;
      while !IsLastOfKey(rows, i)
        invariant 0 <= i < |rows| && rows[i].registrationNumber == k
        decreases |rows| - i
      {
        var j :| i < j < |rows| && rows[j].registrationNumber == rows[i].registrationNumber;
        i := j;
      }
    }
  }

  /** `inserted&.index_by { ... } || {}`: no rows returned gives an empty map. */
  function CompanyIdMap(returned: Option<seq<InsertedRow>>): (m: map<Scalar, InsertedRow>)
    ensures returned.None? ==> m == map[]
    ensures returned.Some? ==>
              forall k :: k in m <==>
                exists i :: 0 <= i < |returned.value| && returned.value[i].registrationNumber == k
  {
    match returned
    case None => map[]
    case Some(rows) => IndexBy(rows)
  }

  /** The key an address is looked up by: `address[:registration_number].to_i`. */
  function LookupKey(a: AddressAttrs): (k: Scalar)
    ensures k.Int?
    ensures a.registrationNumber.None? ==> k == Int(0)
  {
    Int(RubyInteger.FieldToI(a.registrationNumber))
  }

  predicate Linkable(a: AddressAttrs, idMap: map<Scalar, InsertedRow>) {
    LookupKey(a) in idMap
  }

  /** The address with its registration number replaced by the company id. */
  function Link(a: AddressAttrs, companyId: int): LinkedAddress {
    LinkedAddress(a.street, a.city, a.postalCode, a.country, companyId)
  }

  /** `map_addresses_to_companies`: addresses whose key has an inserted row are
      re-keyed to that row's id, the others are dropped (`next` then `compact`). */
  function MapAddressesToCompanies(addresses: seq<AddressAttrs>, idMap: map<Scalar, InsertedRow>)
    : (linked: seq<LinkedAddress>)
    ensures |linked| <= |addresses|
    ensures forall l :: l in linked ==>
              exists a :: a in addresses && Linkable(a, idMap) && l == Link(a, idMap[LookupKey(a)].id)
    ensures forall a :: a in addresses && Linkable(a, idMap) ==> Link(a, idMap[LookupKey(a)].id) in linked
    ensures |linked| == 0 <==> forall a :: a in addresses ==> !Linkable(a, idMap)
  {
    if |addresses| == 0 then []
    else
      var p := addresses[..|addresses| - 1];
      var a := addresses[|addresses| - 1];
      assert forall x :: x in addresses <==> x in p || x == a;
      MapAddressesToCompanies(p, idMap)
      + (if Linkable(a, idMap) then [Link(a, idMap[LookupKey(a)].id)] else [])
  }

  // ---------------------------------------------------------------------------
  // The writer

  /** The raise at the end: `BulkInsertError` exactly when a bucket of failed
      records is non-empty, otherwise the ids of the mapped companies. */
  function Gate(failed: FailedRecords, idMap: map<Scalar, InsertedRow>): (o: Outcome)
    ensures o.BulkInsertError? <==> |failed.companies| > 0 || |failed.addresses| > 0
    ensures o.BulkInsertError? ==> o.failed == failed
    ensures o.Created? ==> forall id :: id in o.companyIds <==> exists k :: k in idMap && idMap[k].id == id
  {
    if |failed.companies| > 0 || |failed.addresses| > 0 then BulkInsertError(failed)
    else Created(set k | k in idMap :: idMap[k].id)
  }

  /** `Creator#perform`: the work of `insert_companies_and_addresses`, with the
      two inserts given as functions of the records they are passed. */
  function Perform(
    companies: seq<CompanyAttrs>,
    addresses: seq<AddressAttrs>,
    insertCompanies: seq<CompanyAttrs> -> CompanyInsert,
    insertAddresses: seq<LinkedAddress> -> AddressInsert
  ): (r: Run)
    ensures |companies| == 0 <==> r.calls == []
    ensures |companies| == 0 ==> r.outcome == Created({})
    ensures |companies| > 0 ==> |r.calls| >= 1 && r.calls[0] == InsertCompanies(companies)
    ensures |r.calls| <= 2
    ensures |r.calls| == 2 <==>
              && |companies| > 0
              && insertCompanies(companies).CompaniesInserted?
              && |MapAddressesToCompanies(addresses, CompanyIdMap(insertCompanies(companies).returned))| > 0
    ensures |r.calls| == 2 ==>
              r.calls[1].InsertAddresses? && |r.calls[1].addresses| > 0
              && insertCompanies(companies).CompaniesInserted?
              && r.calls[1].addresses
                 == MapAddressesToCompanies(addresses, CompanyIdMap(insertCompanies(companies).returned))
    ensures |companies| > 0 && insertCompanies(companies).CompanyInsertRaised? ==>
              r == Run([InsertCompanies(companies)], Raised(insertCompanies(companies).message))
  {
    if |companies| == 0 then Run([], Created({}))
    else
      match insertCompanies(companies)
      case CompanyInsertRaised(message) => Run([InsertCompanies(companies)], Raised(message))
      case CompaniesInserted(returned, failedCompanies) =>
        var idMap := CompanyIdMap(returned);
        var linked := MapAddressesToCompanies(addresses, idMap);
        if |linked| == 0 then
          Run([InsertCompanies(companies)], Gate(FailedRecords(failedCompanies, []), idMap))
        else
          var calls := [InsertCompanies(companies), InsertAddresses(linked)];
          match insertAddresses(linked)
          case AddressInsertRaised(message) => Run(calls, Raised(message))
          case AddressesInserted(failedAddresses) =>
            Run(calls, Gate(FailedRecords(failedCompanies, failedAddresses), idMap))
  }

  // ---------------------------------------------------------------------------
  // Properties of the writer

  /** Linking distributes over concatenation: linked addresses keep their
      input order. */
  lemma {:induction false} MapAddressesAppend(a1: seq<AddressAttrs>, a2: seq<AddressAttrs>, idMap: map<Scalar, InsertedRow>)
    ensures MapAddressesToCompanies(a1 + a2, idMap)
            == MapAddressesToCompanies(a1, idMap) + MapAddressesToCompanies(a2, idMap)
  {
    if |a2| == 0 {
      assert a1 + a2 == a1;
    } else {
      var p2 := a2[..|a2| - 1];
      var a := a2[|a2| - 1];
      assert a2 == p2 + [a];
      assert a1 + a2 == (a1 + p2) + [a];
      MapAddressesAppend(a1, p2, idMap);
      MapAddressesSnoc(a1 + p2, a, idMap);
      MapAddressesSnoc(p2, a, idMap);
      AppendAssociative(MapAddressesToCompanies(a1, idMap), MapAddressesToCompanies(p2, idMap),
                        if Linkable(a, idMap) then [Link(a, idMap[LookupKey(a)].id)] else []);
    }
  }

  lemma MapAddressesSnoc(addresses: seq<AddressAttrs>, a: AddressAttrs, idMap: map<Scalar, InsertedRow>)
    ensures MapAddressesToCompanies(addresses + [a], idMap)
            == MapAddressesToCompanies(addresses, idMap)
               + (if Linkable(a, idMap) then [Link(a, idMap[LookupKey(a)].id)] else [])
  {
    assert (addresses + [a])[..|addresses|] == addresses;
  }

  /** The writer fails with `BulkInsertError` exactly when neither insert raised
      and one of them reported failed records; the error carries both buckets. */
  lemma FailureGate(
    companies: seq<CompanyAttrs>,
    addresses: seq<AddressAttrs>,
    insertCompanies: seq<CompanyAttrs> -> CompanyInsert,
    insertAddresses: seq<LinkedAddress> -> AddressInsert
  )
    requires |companies| > 0
    requires insertCompanies(companies).CompaniesInserted?
    ensures var ci := insertCompanies(companies);
            var linked := MapAddressesToCompanies(addresses, CompanyIdMap(ci.returned));
            var failedAddresses :=
              if |linked| == 0 then [] else
                match insertAddresses(linked)
                case AddressesInserted(f) => f
                case AddressInsertRaised(_) => [];
            var o := Perform(companies, addresses, insertCompanies, insertAddresses).outcome;
            && (o.Raised? <==> |linked| > 0 && insertAddresses(linked).AddressInsertRaised?)
            && (!o.Raised? ==>
                  (o.BulkInsertError? <==> |ci.failed| > 0 || |failedAddresses| > 0))
            && (o.BulkInsertError? ==> o.failed == FailedRecords(ci.failed, failedAddresses))
            && (o.Created? ==>
                  var idMap := CompanyIdMap(ci.returned);
                  o.companyIds == set k | k in idMap :: idMap[k].id)
  {
  }

  /** With string keys in the insert result (as a stubbed insert returns them)
      no address ever links, since lookups use integer keys; no address insert
      is attempted. */
  lemma StringKeysNeverLink(
    companies: seq<CompanyAttrs>,
    addresses: seq<AddressAttrs>,
    insertCompanies: seq<CompanyAttrs> -> CompanyInsert,
    insertAddresses: seq<LinkedAddress> -> AddressInsert
  )
    requires |companies| > 0
    requires insertCompanies(companies).CompaniesInserted?
    requires insertCompanies(companies).returned.Some?
    requires forall r :: r in insertCompanies(companies).returned.value ==> r.registrationNumber.Text?
    ensures MapAddressesToCompanies(addresses, CompanyIdMap(insertCompanies(companies).returned)) == []
    ensures Perform(companies, addresses, insertCompanies, insertAddresses).calls == [InsertCompanies(companies)]
  {
    var rows := insertCompanies(companies).returned.value;
    var idMap := CompanyIdMap(insertCompanies(companies).returned);
    assert forall i :: 0 <= i < |rows| ==> rows[i] in rows;
    assert forall a :: a in addresses ==> !Linkable(a, idMap);
  }

  /** A `nil` insert result drops every address. */
  lemma NilResultDropsAllAddresses(addresses: seq<AddressAttrs>)
    ensures MapAddressesToCompanies(addresses, CompanyIdMap(None)) == []
  {
  }

  /** When, for every address, the insert returned a row under the integer the
      address's number reads as, no address is dropped. */
  lemma IntegerKeysLinkEveryAddress(addresses: seq<AddressAttrs>, rows: seq<InsertedRow>)
    requires forall a :: a in addresses ==>
               a.registrationNumber.Some?
               && exists r :: r in rows && r.registrationNumber == Int(RubyInteger.ToI(a.registrationNumber.value))
    ensures |MapAddressesToCompanies(addresses, IndexBy(rows))| == |addresses|
  {
    AllLinkableKeepsLength(addresses, IndexBy(rows));
  }

  lemma {:induction false} AllLinkableKeepsLength(addresses: seq<AddressAttrs>, idMap: map<Scalar, InsertedRow>)
    requires forall a :: a in addresses ==> Linkable(a, idMap)
    ensures |MapAddressesToCompanies(addresses, idMap)| == |addresses|
  {
    if |addresses| > 0 {
      var p := addresses[..|addresses| - 1];
      assert forall a :: a in p ==> a in addresses;
      assert addresses[|addresses| - 1] in addresses;
      AllLinkableKeepsLength(p, idMap);
    }
  }

  /** The canonical spelling of a stored number links: an address whose number
      is `n.to_s` finds the row the insert returned for `n`. */
  lemma PrintedNumberLinks(a: AddressAttrs, n: int, rows: seq<InsertedRow>)
    requires a.registrationNumber == Some(RubyInteger.Show(n))
    requires exists r :: r in rows && r.registrationNumber == Int(n)
    ensures Linkable(a, IndexBy(rows))
  {
    RubyInteger.ToIOfShow(n);
    var r :| r in rows && r.registrationNumber == Int(n);
    var i :| 0 <= i < |rows| && rows[i] == r;
  }

  /** With distinct keys in the insert result, the writer's success value names
      every returned company. */
  lemma CreatedNamesEveryInsertedCompany(rows: seq<InsertedRow>, failed: FailedRecords)
    requires forall i, j :: 0 <= i < j < |rows| ==> rows[i].registrationNumber != rows[j].registrationNumber
    requires |failed.companies| == 0 && |failed.addresses| == 0
    ensures Gate(failed, IndexBy(rows)) == Created(set r | r in rows :: r.id)
  {
    var m := IndexBy(rows);
    IndexByKeepsLast(rows);
    IndexByValuesAreLast(rows);
    var ids := set r | r in rows :: r.id;
    var got := set k | k in m :: m[k].id;
    forall id | id in ids
      ensures id in got
    {
      var r :| r in rows && r.id == id;
      var i :| 0 <= i < |rows| && rows[i] == r;
      assert IsLastOfKey(rows, i);
      assert m[r.registrationNumber] == r;
    }
    forall id | id in got
      ensures id in ids
    {
      var k :| k in m && m[k].id == id;
      var i :| 0 <= i < |rows| && IsLastOfKey(rows, i) && rows[i] == m[k];
      assert rows[i] in rows;
    }
    assert got == ids;
  }
}

=== FILE: csv_validator.dfy ===
/** The header check run before any data row is read: the six required column
    names must all occur in the file's header row. */
module CsvValidator {
  import opened Values

  /** The required column names, in the order the failure message lists them. */
  const RequiredHeaders: seq<string> :=
    ["name", "registration_number", "street", "city", "postal_code", "country"]

  const MissingPrefix: string := "Missing required headers: "
  const Separator: string := ", "

  datatype HeaderCheck = HeadersOk | InvalidHeaders(message: string)

  /** Ruby's `Array#-`: the elements of `a` that do not occur in `b`, kept in
      their order in `a`. */
  function Difference(a: seq<string>, b: seq<string>): (d: seq<string>)
    ensures forall x :: x in d <==> x in a && x !in b
    ensures |d| <= |a|
  {
    if |a| == 0 then [] else (if a[0] in b then [] else [a[0]]) + Difference(a[1..], b)
  }

  /** `Array#join(sep)`. */
  function Join(xs: seq<string>, sep: string): (r: string)
    ensures |xs| == 0 ==> r == ""
    ensures |xs| > 0 ==> xs[0] <= r
    ensures |xs| > 1 ==> xs[0] + sep <= r
  {
    if |xs| == 0 then "" else if |xs| == 1 then xs[0] else xs[0] + sep + Join(xs[1..], sep)
  }

  /** `headers || []`: a file without a header row has no header names. */
  function HeaderNames(headers: Option<seq<string>>): seq<string> {
    match headers
    case None => []
    case Some(hs) => hs
  }

  /** The required names absent from the header row. */
  function MissingHeaders(headers: Option<seq<string>>): (m: seq<string>)
    ensures forall h :: h in m <==> h in RequiredHeaders && h !in HeaderNames(headers)
  {
    Difference(RequiredHeaders, HeaderNames(headers))
  }

  /** `CsvValidator#validate!` on the header row read from the file. */
  function ValidateHeaders(headers: Option<seq<string>>): (r: HeaderCheck)
    ensures r.HeadersOk? <==> forall h :: h in RequiredHeaders ==> h in HeaderNames(headers)
    ensures r.InvalidHeaders? ==>
              |r.message| >= |MissingPrefix| && r.message[..|MissingPrefix|] == MissingPrefix
  {
    var missing := MissingHeaders(headers);
    if |missing| > 0 then
      assert missing[0] in missing;
      InvalidHeaders(MissingPrefix + Join(missing, Separator))
    else HeadersOk
  }

  // ---------------------------------------------------------------------------
  // Reading the failure message back

  /** Cuts `s` at every `sep`; there is always at least one piece. */
  function Split(s: string, sep: char): (parts: seq<string>)
    ensures |parts| > 0
  {
    if |s| == 0 then [""]
    else
      var rest := Split(s[1..], sep);
      if s[0] == sep then [""] + rest else [[s[0]] + rest[0]] + rest[1..]
  }

  /** Drops the space every piece after a comma must start with; `None` when
      one of them lacks it. */
  function Unpad(parts: seq<string>): (r: Option<seq<string>>)
    ensures r.Some? ==> |r.value| == |parts|
  {
    if |parts| == 0 then Some([])
    else if |parts[0]| == 0 || parts[0][0] != ' ' then None
    else
      match Unpad(parts[1..])
      case None => None
      case Some(rest) => Some([parts[0][1..]] + rest)
  }

  /** The header names a failure message lists, or `None` when the text is not
      the prefix followed by a `", "`-separated list. */
  function ListedHeaders(message: string): Option<seq<string>> {
    if |message| >= |MissingPrefix| && message[..|MissingPrefix|] == MissingPrefix then
      var parts := Split(message[|MissingPrefix|..], ',');
      match Unpad(parts[1..])
      case None => None
      case Some(rest) => Some([parts[0]] + rest)
    else None
  }

  lemma {:induction false} SplitWithout(a: string, sep: char)
    requires sep !in a
    ensures Split(a, sep) == [a]
  {
    if |a| > 0 {
      SplitWithout(a[1..], sep);
      assert [a[0]] + a[1..] == a;
    }
  }

  lemma {:induction false} SplitAt(a: string, sep: char, b: string)
    requires sep !in a
    ensures Split(a + [sep] + b, sep) == [a] + Split(b, sep)
  {
    if |a| == 0 {
      assert a + [sep] + b == [sep] + b;
      assert ([sep] + b)[1..] == b;
    } else {
      var s := a + [sep] + b;
      assert s[0] == a[0];
      assert s[1..] == a[1..] + [sep] + b;
      SplitAt(a[1..], sep, b);
      assert [a[0]] + a[1..] == a;
    }
  }

  /** The pieces of a `", "`-joined list, cut at the commas: the first element,
      then every further element with its leading space. */
  lemma {:induction false} SplitJoin(xs: seq<string>)
    requires |xs| > 0
    requires forall i :: 0 <= i < |xs| ==> ',' !in xs[i]
    ensures Split(Join(xs, Separator), ',') == [xs[0]] + Padded(xs[1..])
  {
    if |xs| == 1 {
      SplitWithout(xs[0], ',');
    } else {
      var tail := Join(xs[1..], Separator);
      assert Join(xs, Separator) == xs[0] + [','] + (" " + tail);
      SplitAt(xs[0], ',', " " + tail);
      SplitJoin(xs[1..]);
      assert Split(" " + tail, ',') == [" " + xs[1]] + Padded(xs[2..]) by {
        var rest := Split(tail, ',');
        assert (" " + tail)[1..] == tail;
        assert rest[0] == xs[1];
      }
    }
  }

  function Padded(xs: seq<string>): (r: seq<string>)
    ensures |r| == |xs|
  {
    if |xs| == 0 then [] else [" " + xs[0]] + Padded(xs[1..])
  }

  lemma {:induction false} UnpadPadded(xs: seq<string>)
    ensures Unpad(Padded(xs)) == Some(xs)
  {
    if |xs| > 0 {
      var ps := Padded(xs);
      UnpadPadded(xs[1..]);
      assert ps[0] == " " + xs[0] && ps[1..] == Padded(xs[1..]);
      assert ps[0][0] == ' ' && ps[0][1..] == xs[0];
      assert Unpad(ps) == Some([xs[0]] + xs[1..]);
      assert [xs[0]] + xs[1..] == xs;
    } else {
      assert Padded(xs) == [];
    }
  }

  /** No required header name contains a comma, so the commas of a failure
      message are exactly its separators. */
  lemma RequiredHeadersHaveNoComma()
    ensures forall h :: h in RequiredHeaders ==> ',' !in h
  {
    assert ',' !in "name";
    assert ',' !in "registration_number";
    assert ',' !in "street";
    assert ',' !in "city";
    assert ',' !in "postal_code";
    assert ',' !in "country";
  }

  /** Round trip: a header failure message lists exactly the missing headers,
      in required-list order. */
  lemma MessageListsMissingHeaders(headers: Option<seq<string>>)
    ensures ValidateHeaders(headers).InvalidHeaders? ==>
              ListedHeaders(ValidateHeaders(headers).message) == Some(MissingHeaders(headers))
  {
    if ValidateHeaders(headers).InvalidHeaders? {
      var missing := MissingHeaders(headers);
      assert ValidateHeaders(headers).message == MissingPrefix + Join(missing, Separator);
      MissingHeadersHaveNoComma(headers);
      ListedJoin(missing);
    }
  }

  lemma MissingHeadersHaveNoComma(headers: Option<seq<string>>)
    ensures forall i :: 0 <= i < |MissingHeaders(headers)| ==> ',' !in MissingHeaders(headers)[i]
  {
    var missing := MissingHeaders(headers);
    RequiredHeadersHaveNoComma();
    forall i | 0 <= i < |missing|
      ensures ',' !in missing[i]
    {
      assert missing[i] in missing;
    }
  }

  /** The parser reads back any non-empty list of comma-free names that the
      check would write. */
  lemma ListedJoin(xs: seq<string>)
    requires |xs| > 0
    requires forall i :: 0 <= i < |xs| ==> ',' !in xs[i]
    ensures ListedHeaders(MissingPrefix + Join(xs, Separator)) == Some(xs)
  {
    var joined := Join(xs, Separator);
    var message := MissingPrefix + joined;
    assert message[..|MissingPrefix|] == MissingPrefix;
    assert message[|MissingPrefix|..] == joined;
    SplitJoin(xs);
    UnpadPadded(xs[1..]);
    assert ListedHeaders(message) == Some([xs[0]] + xs[1..]);
    assert [xs[0]] + xs[1..] == xs;
  }

  /** The parser insists on the `", "` separator: two names joined by a bare
      comma are not read back as a list. */
  lemma UnspacedSeparatorRejected(a: string, b: string)
    requires ',' !in a && ',' !in b
    requires |b| == 0 || b[0] != ' '
    ensures ListedHeaders(MissingPrefix + a + "," + b) == None
  {
    var message := MissingPrefix + a + "," + b;
    assert message[..|MissingPrefix|] == MissingPrefix;
    assert message[|MissingPrefix|..] == a + [','] + b;
    SplitAt(a, ',', b);
    SplitWithout(b, ',');
    assert Split(message[|MissingPrefix|..], ',')[1..] == [b];
  }

  // ---------------------------------------------------------------------------
  // Properties of the check

  /** `Array#-` distributes over concatenation of its left operand: the result
      keeps the left operand's order. */
  lemma {:induction false} DifferenceAppend(a1: seq<string>, a2: seq<string>, b: seq<string>)
    ensures Difference(a1 + a2, b) == Difference(a1, b) + Difference(a2, b)
  {
    if |a1| == 0 {
      assert a1 + a2 == a2;
    } else {
      var head := if a1[0] in b then [] else [a1[0]];
      assert (a1 + a2)[0] == a1[0];
      assert (a1 + a2)[1..] == a1[1..] + a2;
      DifferenceAppend(a1[1..], a2, b);
      AppendAssociative(head, Difference(a1[1..], b), Difference(a2, b));
    }
  }

  /** `Array#-` only looks at which elements the right operand contains. */
  lemma {:induction false} DifferenceMembersOnly(a: seq<string>, b1: seq<string>, b2: seq<string>)
    requires forall x :: x in b1 <==> x in b2
    ensures Difference(a, b1) == Difference(a, b2)
  {
    if |a| > 0 {
      DifferenceMembersOnly(a[1..], b1, b2);
    }
  }

  /** Column order, repeated columns and extra columns never change the outcome:
      only the set of header names matters. */
  lemma HeaderOrderIrrelevant(h1: Option<seq<string>>, h2: Option<seq<string>>)
    requires forall x :: x in HeaderNames(h1) <==> x in HeaderNames(h2)
    ensures ValidateHeaders(h1) == ValidateHeaders(h2)
  {
    DifferenceMembersOnly(RequiredHeaders, HeaderNames(h1), HeaderNames(h2));
  }

  /** A file without a header row fails, and its message lists all six
      required names in order. */
  lemma NoHeaderRowMissesAll()
    ensures MissingHeaders(None) == RequiredHeaders
    ensures ValidateHeaders(None).InvalidHeaders?
    ensures ListedHeaders(ValidateHeaders(None).message) == Some(RequiredHeaders)
  {
    DifferenceNothing(RequiredHeaders);
    MessageListsMissingHeaders(None);
  }

  lemma {:induction false} DifferenceNothing(a: seq<string>)
    ensures Difference(a, []) == a
  {
    if |a| > 0 {
      DifferenceNothing(a[1..]);
      assert [a[0]] + a[1..] == a;
    }
  }
}

=== FILE: data_validator.dfy ===
/** Validation of one data row: a company and an address are built from the
    row's cells and checked with the model validations. */
module DataValidator {
  import opened Values
  import opened Records
  import CompanyModel
  import AddressModel

  datatype Validation =
    | Valid(company: CompanyAttrs, address: AddressAttrs)
    | Invalid(error: RowError)

  /** `company_attributes` */
  function CompanyAttributes(row: Row): (c: CompanyAttrs)
    ensures CopiesColumn(c.name, row, "name")
    ensures CopiesColumn(c.registrationNumber, row, "registration_number")
  {
    CompanyAttrs(Cell(row, "name"), Cell(row, "registration_number"))
  }

  /** `address_attributes`: the registration number is read from the same
      column as the company's. */
  function AddressAttributes(row: Row): (a: AddressAttrs)
    ensures CopiesColumn(a.street, row, "street")
    ensures CopiesColumn(a.city, row, "city")
    ensures CopiesColumn(a.postalCode, row, "postal_code")
    ensures CopiesColumn(a.country, row, "country")
    ensures CopiesColumn(a.registrationNumber, row, "registration_number")
  {
    AddressAttrs(
      Cell(row, "street"), Cell(row, "city"), Cell(row, "postal_code"), Cell(row, "country"),
      Cell(row, "registration_number"))
  }

  /** `DataValidator#validate`. The address is built with the company attached,
      and `company.valid? && address.valid?` skips the address check when the
      company is invalid, so its messages are then never collected. */
  function Validate(row: Row, line: nat, store: CompanyModel.Store): (v: Validation)
    ensures v.Valid? <==>
              CompanyModel.IsValid(CompanyAttributes(row), store)
              && AddressModel.IsValid(AddressAttributes(row), true)
    ensures v.Valid? ==>
              && v.company == CompanyAttrs(Cell(row, "name"), Cell(row, "registration_number"))
              && v.address == AddressAttrs(Cell(row, "street"), Cell(row, "city"),
                                           Cell(row, "postal_code"), Cell(row, "country"),
                                           Cell(row, "registration_number"))
    ensures v.Valid? ==> v.address.registrationNumber == v.company.registrationNumber
    ensures v.Invalid? ==> v.error.line == line && |v.error.errors| > 0
  {
    var company := CompanyAttributes(row);
    var address := AddressAttributes(row);
    if CompanyModel.IsValid(company, store) && AddressModel.IsValid(address, true) then
      Valid(company, address)
    else
      var addressMessages :=
        if CompanyModel.IsValid(company, store) then AddressModel.AddressErrors(address, true) else [];
      Invalid(RowError(line, CompanyModel.CompanyErrors(company, store) + addressMessages))
  }

  /** The messages of a failing row: all of the company's, followed by the
      address's only when the company passed. */
  lemma FailureMessages(row: Row, line: nat, store: CompanyModel.Store)
    requires Validate(row, line, store).Invalid?
    ensures var company := CompanyAttributes(row);
            var messages := Validate(row, line, store).error.errors;
            if CompanyModel.IsValid(company, store) then
              messages == AddressModel.AddressErrors(AddressAttributes(row), true)
            else
              messages == CompanyModel.CompanyErrors(company, store)
  {
  }

  /** An invalid company hides every address problem: no address message is
      reported, whatever the street, city and country cells hold. */
  lemma InvalidCompanyHidesAddressMessages(row: Row, line: nat, store: CompanyModel.Store)
    requires !CompanyModel.IsValid(CompanyAttributes(row), store)
    ensures Validate(row, line, store).Invalid?
    ensures forall m :: m in Validate(row, line, store).error.errors ==>
              m !in [AddressModel.StreetBlank, AddressModel.CityBlank, AddressModel.CountryBlank]
  {
  }

  /** The address is always validated with its company attached, so "must
      exist" is never reported for a row. */
  lemma CompanyAlwaysAttached(row: Row, line: nat, store: CompanyModel.Store)
    ensures Validate(row, line, store).Invalid? ==>
              AddressModel.CompanyMissing !in Validate(row, line, store).error.errors
  {
  }
}

=== FILE: reader.dfy ===
/** The collector: checks the file's structure, then folds over the numbered
    data rows, keeping the first company per registration number, every valid
    row's address and every invalid row's error. */
module Reader {
  import opened Values
  import opened Records
  import CompanyModel
  import CsvValidator
  import DataValidator

  /** How reading the file ends: after the rows, or with a parse failure
      (`CSV::MalformedCSVError`) right after them. */
  datatype Ending = Complete | Malformed(message: string)

  /** The file as the parser sees it: the header row (absent in an empty file),
      the data rows, and how parsing ends. */
  datatype CsvFile = CsvFile(headers: Option<seq<string>>, rows: seq<Row>, ending: Ending)

  /** `[companies_data.values, addresses_data, errors]` */
  datatype Collected = Collected(companies: seq<CompanyAttrs>, addresses: seq<AddressAttrs>, errors: seq<RowError>)

  const MalformedPrefix: string := "Malformed CSV file: "

  const Nothing: Collected := Collected([], [], [])

  // ---------------------------------------------------------------------------
  // Registration-number keys

  predicate HasKey(companies: seq<CompanyAttrs>, key: Field) {
    exists i :: 0 <= i < |companies| && companies[i].registrationNumber == key
  }

  predicate DistinctKeys(companies: seq<CompanyAttrs>) {
    forall i, j :: 0 <= i < j < |companies| ==>
      companies[i].registrationNumber != companies[j].registrationNumber
  }

  function Keys(companies: seq<CompanyAttrs>): set<Field> {
    set i | 0 <= i < |companies| :: companies[i].registrationNumber
  }

  // ---------------------------------------------------------------------------
  // The fold

  /** `process_row`: a valid row adds its company unless one with the same
      registration number is already held (`||=`), and always adds its address;
      an invalid row adds its error and nothing else. */
  function ProcessRow(st: Collected, row: Row, line: nat, store: CompanyModel.Store): (r: Collected)
    ensures st.companies <= r.companies && st.addresses <= r.addresses && st.errors <= r.errors
    ensures |r.addresses| + |r.errors| == |st.addresses| + |st.errors| + 1
    ensures |r.companies| <= |st.companies| + 1
    ensures DistinctKeys(st.companies) ==> DistinctKeys(r.companies)
  {
    match DataValidator.Validate(row, line, store)
    case Valid(company, address) =>
      var companies :=
        if HasKey(st.companies, company.registrationNumber) then st.companies
        else st.companies + [company];
      Collected(companies, st.addresses + [address], st.errors)
    case Invalid(error) =>
      st.(errors := st.errors + [error])
  }

  /** `process_csv_rows`: the rows are numbered from 1 in file order. */
  function ProcessRows(rows: seq<Row>, store: CompanyModel.Store): (r: Collected)
    ensures |r.addresses| + |r.errors| == |rows|
    ensures |r.companies| <= |r.addresses|
    ensures DistinctKeys(r.companies)
  {
    if |rows| == 0 then Nothing
    else ProcessRow(ProcessRows(rows[..|rows| - 1], store), rows[|rows| - 1], |rows|, store)
  }

  /** The rescue clause of `perform`: both record lists are dropped and a line-0
      error is appended to the errors gathered so far. */
  function Rescue(errors: seq<RowError>, message: string): (r: Collected)
    ensures r.companies == [] && r.addresses == []
    ensures |r.errors| == |errors| + 1 && errors < r.errors
    ensures r.errors[|errors|].line == 0
    ensures r.errors[|errors|].errors == [MalformedPrefix + message]
  {
    Collected([], [], errors + [RowError(0, [MalformedPrefix + message])])
  }

  /** Reading the data rows under the rescue clause: a parse failure after some
      rows keeps the row errors found before it. */
  function ReadRows(rows: seq<Row>, ending: Ending, store: CompanyModel.Store): (r: Collected)
    ensures ending.Complete? ==> |r.addresses| + |r.errors| == |rows| && DistinctKeys(r.companies)
    ensures ending.Malformed? ==>
              && r.companies == [] && r.addresses == []
              && 1 <= |r.errors| <= |rows| + 1
              && r.errors[|r.errors| - 1] == RowError(0, [MalformedPrefix + ending.message])
  {
    var st := ProcessRows(rows, store);
    match ending
    case Complete => st
    case Malformed(message) => Rescue(st.errors, message)
  }

  /** The failure `validate!` raises, if any. It reads the whole file before
      looking at the headers, so any parse failure surfaces here. */
  function StructuralError(file: CsvFile): (e: Option<string>)
    ensures e.None? <==> file.ending.Complete? && CsvValidator.ValidateHeaders(file.headers).HeadersOk?
    ensures file.ending.Malformed? ==> e == Some(file.ending.message)
    ensures file.ending.Complete? && e.Some? ==>
              |e.value| >= |CsvValidator.MissingPrefix| &&
              e.value[..|CsvValidator.MissingPrefix|] == CsvValidator.MissingPrefix
  {
    if file.ending.Malformed? then Some(file.ending.message)
    else
      match CsvValidator.ValidateHeaders(file.headers)
      case HeadersOk => None
      case InvalidHeaders(message) => Some(message)
  }

  /** `Reader#perform` */
  function Perform(file: CsvFile, store: CompanyModel.Store): (r: Collected)
    ensures StructuralError(file).Some? ==>
              r == Collected([], [], [RowError(0, [MalformedPrefix + StructuralError(file).value])])
    ensures StructuralError(file).None? ==>
              && |r.addresses| + |r.errors| == |file.rows|
              && DistinctKeys(r.companies)
  {
    match StructuralError(file)
    case Some(message) => Rescue([], message)
    case None =>
      ReadRows(file.rows, file.ending, store)
  }

  // ---------------------------------------------------------------------------
  // Reference definitions: what the fold collects, stated without a fold

  /** The validator's verdict on every row, row `i` numbered `i + 1`. */
  function Outcomes(rows: seq<Row>, store: CompanyModel.Store): seq<DataValidator.Validation> {
    seq(|rows|, i requires 0 <= i < |rows| => DataValidator.Validate(rows[i], i + 1, store))
  }

  function ValidCompanies(vs: seq<DataValidator.Validation>): seq<CompanyAttrs> {
    if |vs| == 0 then []
    else ValidCompanies(vs[..|vs| - 1]) + (if vs[|vs| - 1].Valid? then [vs[|vs| - 1].company] else [])
  }

  function ValidAddresses(vs: seq<DataValidator.Validation>): seq<AddressAttrs> {
    if |vs| == 0 then []
    else ValidAddresses(vs[..|vs| - 1]) + (if vs[|vs| - 1].Valid? then [vs[|vs| - 1].address] else [])
  }

  function InvalidRows(vs: seq<DataValidator.Validation>): seq<RowError> {
    if |vs| == 0 then []
    else InvalidRows(vs[..|vs| - 1]) + (if vs[|vs| - 1].Invalid? then [vs[|vs| - 1].error] else [])
  }

  /** No earlier company has the same registration number as `cs[i]`. */
  predicate IsFirstOfKey(cs: seq<CompanyAttrs>, i: int)
    requires 0 <= i < |cs|
  {
    forall j :: 0 <= j < i ==> cs[j].registrationNumber != cs[i].registrationNumber
  }

  /** The companies that are the first with their registration number, in order. */
  function FirstWins(cs: seq<CompanyAttrs>): seq<CompanyAttrs> {
    if |cs| == 0 then []
    else FirstWins(cs[..|cs| - 1]) + (if IsFirstOfKey(cs, |cs| - 1) then [cs[|cs| - 1]] else [])
  }

  // ---------------------------------------------------------------------------
  // First-wins deduplication

  lemma FirstOfKeyAtEnd(cs: seq<CompanyAttrs>, c: CompanyAttrs)
    ensures IsFirstOfKey(cs + [c], |cs|) <==> !HasKey(cs, c.registrationNumber)
  {
    var s := cs + [c];
    assert s[|cs|] == c;
    if HasKey(cs, c.registrationNumber) {
      var j :| 0 <= j < |cs| && cs[j].registrationNumber == c.registrationNumber;
      assert s[j] == cs[j];
      assert !IsFirstOfKey(s, |cs|);
    }
    if !IsFirstOfKey(s, |cs|) {
      var j :| 0 <= j < |cs| && s[j].registrationNumber == s[|cs|].registrationNumber;
      assert cs[j] == s[j];
      assert HasKey(cs, c.registrationNumber);
    }
  }

  /** Deduplication loses no registration number and invents none. */
  lemma {:induction false} FirstWinsKeys(cs: seq<CompanyAttrs>)
    ensures forall k :: HasKey(FirstWins(cs), k) <==> HasKey(cs, k)
  {
    if |cs| > 0 {
      var p := cs[..|cs| - 1];
      var c := cs[|cs| - 1];
      assert cs == p + [c];
      FirstWinsKeys(p);
      FirstOfKeyAtEnd(p, c);
      forall k
        ensures HasKey(FirstWins(cs), k) <==> HasKey(cs, k)
      {
        if HasKey(cs, k) {
          var i :| 0 <= i < |cs| && cs[i].registrationNumber == k;
          if i < |cs| - 1 {
            assert p[i] == cs[i];
            assert HasKey(p, k);
            var j :| 0 <= j < |FirstWins(p)| && FirstWins(p)[j].registrationNumber == k;
            assert FirstWins(cs)[j] == FirstWins(p)[j];
          } else if IsFirstOfKey(cs, |cs| - 1) {
            assert FirstWins(cs)[|FirstWins(cs)| - 1] == c;
          } else {
            assert HasKey(p, k);
            var j :| 0 <= j < |FirstWins(p)| && FirstWins(p)[j].registrationNumber == k;
            assert FirstWins(cs)[j] == FirstWins(p)[j];
          }
        }
        if HasKey(FirstWins(cs), k) {
          var j :| 0 <= j < |FirstWins(cs)| && FirstWins(cs)[j].registrationNumber == k;
          if j < |FirstWins(p)| {
            assert FirstWins(p)[j] == FirstWins(cs)[j];
            assert HasKey(FirstWins(p), k);
            var i :| 0 <= i < |p| && p[i].registrationNumber == k;
            assert cs[i] == p[i];
          } else {
            assert cs[|cs| - 1].registrationNumber == k;
          }
        }
      }
    }
  }

  /** The deduplicated companies have pairwise distinct registration numbers. */
  lemma {:induction false} FirstWinsDistinct(cs: seq<CompanyAttrs>)
    ensures DistinctKeys(FirstWins(cs))
  {
    if |cs| > 0 {
      var p := cs[..|cs| - 1];
      var c := cs[|cs| - 1];
      assert cs == p + [c];
      FirstWinsDistinct(p);
      FirstWinsKeys(p);
      FirstOfKeyAtEnd(p, c);
      if IsFirstOfKey(cs, |cs| - 1) {
        var f := FirstWins(cs);
        forall i, j | 0 <= i < j < |f|
          ensures f[i].registrationNumber != f[j].registrationNumber
        {
          if j == |f| - 1 {
            assert f[i] == FirstWins(p)[i];
            assert !HasKey(FirstWins(p), c.registrationNumber);
          } else {
            assert f[i] == FirstWins(p)[i] && f[j] == FirstWins(p)[j];
          }
        }
      }
    }
  }

  /** Exactly the first company of every registration number survives: each
      survivor is the first with its number, and each first one survives. */
  lemma {:induction false} FirstWinsElements(cs: seq<CompanyAttrs>)
    ensures forall c :: c in FirstWins(cs) ==>
              exists i :: 0 <= i < |cs| && IsFirstOfKey(cs, i) && cs[i] == c
    ensures forall i :: 0 <= i < |cs| && IsFirstOfKey(cs, i) ==> cs[i] in FirstWins(cs)
  {
    FirstWinsSound(cs);
    FirstWinsComplete(cs);
    forall c | c in FirstWins(cs)
      ensures exists i :: 0 <= i < |cs| && IsFirstOfKey(cs, i) && cs[i] == c
    {
      var k :| 0 <= k < |FirstWins(cs)| && FirstWins(cs)[k] == c;
    }
  }

  /** Every survivor is the first company with its number. */
  predicate SurvivorsAreFirst(cs: seq<CompanyAttrs>) {
    forall k :: 0 <= k < |FirstWins(cs)| ==>
      exists i :: 0 <= i < |cs| && IsFirstOfKey(cs, i) && cs[i] == FirstWins(cs)[k]
  }

  lemma {:induction false} FirstWinsSound(cs: seq<CompanyAttrs>)
    ensures SurvivorsAreFirst(cs)
  {
    if |cs| == 0 {
      assert FirstWins(cs) == [];
    } else {
      var p := cs[..|cs| - 1];
      var fp := FirstWins(p);
      var last := |cs| - 1;
      var f := FirstWins(cs);
      assert f == fp + (if IsFirstOfKey(cs, last) then [cs[last]] else []);
      FirstWinsSound(p);
      forall k | 0 <= k < |f|
        ensures exists i :: 0 <= i < |cs| && IsFirstOfKey(cs, i) && cs[i] == f[k]
      {
        if k < |fp| {
          assert f[k] == fp[k];
          var i :| 0 <= i < |p| && IsFirstOfKey(p, i) && p[i] == fp[k];
          FirstOfKeyInPrefix(cs, i);
        } else {
          assert IsFirstOfKey(cs, last) && f[k] == cs[last];
        }
      }
    }
  }

  /** Being first with a number only depends on the companies before. */
  lemma FirstOfKeyInPrefix(cs: seq<CompanyAttrs>, i: int)
    requires 0 <= i < |cs| - 1
    ensures IsFirstOfKey(cs[..|cs| - 1], i) <==> IsFirstOfKey(cs, i)
  {
    var p := cs[..|cs| - 1];
    assert forall j :: 0 <= j <= i ==> p[j] == cs[j];
  }

  lemma {:induction false} FirstWinsComplete(cs: seq<CompanyAttrs>)
    ensures forall i :: 0 <= i < |cs| && IsFirstOfKey(cs, i) ==> cs[i] in FirstWins(cs)
  {
    if |cs| > 0 {
      var p := cs[..|cs| - 1];
      var fp := FirstWins(p);
      var last := |cs| - 1;
      var f := FirstWins(cs);
      assert f == fp + (if IsFirstOfKey(cs, last) then [cs[last]] else []);
      FirstWinsComplete(p);
      forall i | 0 <= i < |cs| && IsFirstOfKey(cs, i)
        ensures cs[i] in f
      {
        if i < last {
          FirstOfKeyInPrefix(cs, i);
          assert p[i] == cs[i];
          assert cs[i] in fp;
        } else {
          assert f[|f| - 1] == cs[i];
        }
      }
    }
  }

  /** One company per distinct registration number. */
  lemma {:induction false} FirstWinsCount(cs: seq<CompanyAttrs>)
    ensures |FirstWins(cs)| == |Keys(cs)|
  {
    if |cs| == 0 {
      assert Keys(cs) == {};
    } else {
      var p := cs[..|cs| - 1];
      var c := cs[|cs| - 1];
      assert cs == p + [c];
      FirstWinsCount(p);
      FirstOfKeyAtEnd(p, c);
      assert (p + [c])[..|p|] == p;
      assert Keys(cs) == Keys(p) + {c.registrationNumber} by {
        forall k | k in Keys(cs)
          ensures k in Keys(p) + {c.registrationNumber}
        {
          var i :| 0 <= i < |cs| && cs[i].registrationNumber == k;
          if i < |p| {
            assert p[i] == cs[i];
          }
        }
        forall k | k in Keys(p)
          ensures k in Keys(cs)
        {
          var i :| 0 <= i < |p| && p[i].registrationNumber == k;
          assert cs[i] == p[i];
        }
        assert cs[|cs| - 1] == c;
      }
      if HasKey(p, c.registrationNumber) {
        var i :| 0 <= i < |p| && p[i].registrationNumber == c.registrationNumber;
        assert c.registrationNumber in Keys(p);
        assert Keys(cs) == Keys(p);
        assert FirstWins(cs) == FirstWins(p);
      } else {
        assert c.registrationNumber !in Keys(p);
        assert FirstWins(cs) == FirstWins(p) + [c];
      }
    }
  }

  // ---------------------------------------------------------------------------
  // The fold computes the reference definitions

  lemma OutcomesPrefix(rows: seq<Row>, store: CompanyModel.Store)
    requires |rows| > 0
    ensures Outcomes(rows[..|rows| - 1], store) == Outcomes(rows, store)[..|rows| - 1]
  {
  }

  /** Adding one company at the end keeps it exactly when its number is new. */
  lemma FirstWinsSnoc(cs: seq<CompanyAttrs>, c: CompanyAttrs)
    ensures FirstWins(cs + [c])
            == if HasKey(FirstWins(cs), c.registrationNumber) then FirstWins(cs) else FirstWins(cs) + [c]
  {
    assert (cs + [c])[..|cs|] == cs;
    FirstOfKeyAtEnd(cs, c);
    FirstWinsKeys(cs);
  }

  lemma ReferenceSnoc(vs: seq<DataValidator.Validation>, v: DataValidator.Validation)
    ensures ValidCompanies(vs + [v]) == ValidCompanies(vs) + (if v.Valid? then [v.company] else [])
    ensures ValidAddresses(vs + [v]) == ValidAddresses(vs) + (if v.Valid? then [v.address] else [])
    ensures InvalidRows(vs + [v]) == InvalidRows(vs) + (if v.Invalid? then [v.error] else [])
  {
    assert (vs + [v])[..|vs|] == vs;
  }

  /** The fold collects the first-wins companies of the valid rows, the
      addresses of the valid rows and the errors of the invalid rows, each in
      file order. */
  lemma {:induction false} ProcessRowsIsReference(rows: seq<Row>, store: CompanyModel.Store)
    ensures var vs := Outcomes(rows, store);
            ProcessRows(rows, store)
            == Collected(FirstWins(ValidCompanies(vs)), ValidAddresses(vs), InvalidRows(vs))
  {
    if |rows| > 0 {
      var n := |rows|;
      var p := rows[..n - 1];
      var pvs := Outcomes(p, store);
      var v := DataValidator.Validate(rows[n - 1], n, store);
      assert Outcomes(rows, store) == pvs + [v];
      ProcessRowsIsReference(p, store);
      ReferenceSnoc(pvs, v);
      var st := ProcessRows(p, store);
      assert ProcessRows(rows, store) == ProcessRow(st, rows[n - 1], n, store);
      if v.Valid? {
        var cs := ValidCompanies(pvs);
        FirstWinsSnoc(cs, v.company);
        assert st.companies == FirstWins(cs);
        assert ProcessRow(st, rows[n - 1], n, store).companies
               == if HasKey(FirstWins(cs), v.company.registrationNumber) then FirstWins(cs)
                  else FirstWins(cs) + [v.company];
      } else {
        assert v == DataValidator.Invalid(v.error);
        assert ProcessRow(st, rows[n - 1], n, store) == st.(errors := st.errors + [v.error]);
        var vs := pvs + [v];
        assert ValidCompanies(vs) == ValidCompanies(pvs) + [];
        assert ValidCompanies(pvs) + [] == ValidCompanies(pvs);
        assert ValidAddresses(vs) == ValidAddresses(pvs) + [];
        assert ValidAddresses(pvs) + [] == ValidAddresses(pvs);
        assert InvalidRows(vs) == InvalidRows(pvs) + [v.error];
      }
    } else {
      var vs := Outcomes(rows, store);
      assert vs == [];
      assert ValidCompanies(vs) == [] && FirstWins([]) == [];
    }
  }

  // ---------------------------------------------------------------------------
  // Properties of the collector

  /** With no structural failure, `perform` returns the fold's result, which is
      the reference collection. */
  lemma PerformMatchesReference(file: CsvFile, store: CompanyModel.Store)
    requires StructuralError(file).None?
    ensures var vs := Outcomes(file.rows, store);
            Perform(file, store)
            == Collected(FirstWins(ValidCompanies(vs)), ValidAddresses(vs), InvalidRows(vs))
  {
    ProcessRowsIsReference(file.rows, store);
  }

  /** Every row lands in exactly one of addresses and errors, and there is one
      company per distinct registration number among the valid rows. */
  lemma RowAccounting(file: CsvFile, store: CompanyModel.Store)
    requires StructuralError(file).None?
    ensures var r := Perform(file, store);
            && |r.addresses| + |r.errors| == |file.rows|
            && |r.companies| == |Keys(ValidCompanies(Outcomes(file.rows, store)))|
  {
    PerformMatchesReference(file, store);
    FirstWinsCount(ValidCompanies(Outcomes(file.rows, store)));
  }

  /** The first valid row with a registration number supplies the company;
      later rows with that number never replace it. */
  lemma FirstRowSuppliesCompany(file: CsvFile, store: CompanyModel.Store)
    requires StructuralError(file).None?
    ensures var cs := ValidCompanies(Outcomes(file.rows, store));
            var r := Perform(file, store);
            && DistinctKeys(r.companies)
            && (forall c :: c in r.companies ==>
                  exists i :: 0 <= i < |cs| && IsFirstOfKey(cs, i) && cs[i] == c)
            && (forall i :: 0 <= i < |cs| && IsFirstOfKey(cs, i) ==> cs[i] in r.companies)
  {
    var cs := ValidCompanies(Outcomes(file.rows, store));
    PerformMatchesReference(file, store);
    FirstWinsElements(cs);
    FirstWinsDistinct(cs);
  }

  /** Every failing verdict carries the line of its own position. */
  predicate LinesNumbered(vs: seq<DataValidator.Validation>) {
    forall i :: 0 <= i < |vs| && vs[i].Invalid? ==> vs[i].error.line == i + 1
  }

  /** `e` is the failing verdict of the row its line number names. */
  predicate IsErrorOfLine(vs: seq<DataValidator.Validation>, e: RowError) {
    1 <= e.line <= |vs| && vs[e.line - 1] == DataValidator.Invalid(e)
  }

  lemma {:induction false} InvalidRowsLines(vs: seq<DataValidator.Validation>)
    requires LinesNumbered(vs)
    ensures var errs := InvalidRows(vs);
            && (forall e :: e in errs ==> IsErrorOfLine(vs, e))
            && (forall k, l :: 0 <= k < l < |errs| ==> errs[k].line < errs[l].line)
            && (forall i :: 0 <= i < |vs| && vs[i].Invalid? ==> vs[i].error in errs)
  {
    if |vs| > 0 {
      var n := |vs|;
      var p := vs[..n - 1];
      var v := vs[n - 1];
      assert vs == p + [v];
      assert LinesNumbered(p) by {
        forall i | 0 <= i < |p| && p[i].Invalid?
          ensures p[i].error.line == i + 1
        {
          assert p[i] == vs[i];
        }
      }
      InvalidRowsLines(p);
      var pe := InvalidRows(p);
      var errs := InvalidRows(vs);
      assert errs == pe + (if v.Invalid? then [v.error] else []);
      forall e | e in errs
        ensures IsErrorOfLine(vs, e)
      {
        if e in pe {
          assert IsErrorOfLine(p, e);
          assert vs[e.line - 1] == p[e.line - 1];
        } else {
          assert v.Invalid? && e == v.error && e.line == n;
        }
      }
      forall k, l | 0 <= k < l < |errs|
        ensures errs[k].line < errs[l].line
      {
        assert errs[k] == pe[k];
        assert pe[k] in pe && IsErrorOfLine(p, pe[k]);
        if l < |pe| {
          assert errs[l] == pe[l];
        }
      }
      forall i | 0 <= i < n && vs[i].Invalid?
        ensures vs[i].error in errs
      {
        if i < n - 1 {
          assert vs[i] == p[i];
        }
      }
    } else {
      assert InvalidRows(vs) == [];
    }
  }

  /** The errors are those of the invalid rows, in file order: each is the
      validator's error for the row its line names, the lines strictly
      increase, and no invalid row is missed. */
  lemma RowErrorLines(file: CsvFile, store: CompanyModel.Store)
    requires StructuralError(file).None?
    ensures var vs := Outcomes(file.rows, store);
            var errs := Perform(file, store).errors;
            && (forall e :: e in errs ==> IsErrorOfLine(vs, e))
            && (forall k, l :: 0 <= k < l < |errs| ==> errs[k].line < errs[l].line)
            && (forall i :: 0 <= i < |vs| && vs[i].Invalid? ==> vs[i].error in errs)
  {
    var vs := Outcomes(file.rows, store);
    PerformMatchesReference(file, store);
    OutcomesNumbered(file.rows, store);
    InvalidRowsLines(vs);
  }

  /** The verdict of the row at position `i` names line `i + 1`. */
  lemma OutcomesNumbered(rows: seq<Row>, store: CompanyModel.Store)
    ensures LinesNumbered(Outcomes(rows, store))
  {
  }

  /** A parse failure after some rows drops every record but keeps the row
      errors collected before it, then adds the line-0 error. */
  lemma MalformedKeepsRowErrors(rows: seq<Row>, message: string, store: CompanyModel.Store)
    ensures var r := ReadRows(rows, Malformed(message), store);
            && r.companies == [] && r.addresses == []
            && r.errors == ProcessRows(rows, store).errors + [RowError(0, [MalformedPrefix + message])]
  {
  }

  /** The header check reads the whole file first, so within `perform` a parse
      failure is met before any row is processed and the only error is the
      line-0 one. */
  lemma MalformedFileReportsOnlyStructuralError(file: CsvFile, store: CompanyModel.Store)
    requires file.ending.Malformed?
    ensures Perform(file, store) == Collected([], [], [RowError(0, [MalformedPrefix + file.ending.message])])
  {
  }

  /** Missing headers decide the outcome alone: the data rows do not matter,
      and the error lists exactly the missing names. */
  lemma HeaderFailureIgnoresRows(file: CsvFile, rows: seq<Row>, store: CompanyModel.Store)
    requires file.ending.Complete?
    requires CsvValidator.ValidateHeaders(file.headers).InvalidHeaders?
    ensures Perform(file, store) == Perform(file.(rows := rows), store)
    ensures Perform(file, store).errors
            == [RowError(0, [MalformedPrefix + CsvValidator.ValidateHeaders(file.headers).message])]
    ensures CsvValidator.ListedHeaders(CsvValidator.ValidateHeaders(file.headers).message)
            == Some(CsvValidator.MissingHeaders(file.headers))
  {
    CsvValidator.MessageListsMissingHeaders(file.headers);
  }
}

=== FILE: records.dfy ===
/** The records that flow through the import: a data row of the file, the
    company and address attribute records built from it, and a per-line error. */
module Records {
  import opened Values

  /** One data row: column name to cell text. A cell the CSV parser reads as
      `nil`, or a column the row lacks, is an absent key. */
  type Row = map<string, string>

  /** `f` is what `row[column]` gives: the cell's text, or `nil` when the row
      has no such cell. */
  predicate CopiesColumn(f: Field, row: Row, column: string) {
    && (f.Some? <==> column in row)
    && (f.Some? ==> f.value == row[column])
  }

  /** `row[column]`. */
  function Cell(row: Row, column: string): (f: Field)
    ensures CopiesColumn(f, row, column)
  {
    if column in row then Some(row[column]) else None
  }

  /** `{name:, registration_number:}`, the company part of a valid row. */
  datatype CompanyAttrs = CompanyAttrs(name: Field, registrationNumber: Field)

  /** `{street:, city:, postal_code:, country:, registration_number:}`, the
      address part of a valid row, linked to its company by registration number. */
  datatype AddressAttrs = AddressAttrs(
    street: Field, city: Field, postalCode: Field, country: Field, registrationNumber: Field)

  /** `{line:, errors:}`: line 0 is the whole file, data rows count from 1. */
  datatype RowError = RowError(line: nat, errors: seq<string>)
}

=== FILE: ruby_integer.dfy ===
/** Ruby's conversions between strings and integers, as far as the import uses
    them: `String#to_i` (how Rails casts the integer `registration_number`
    attribute and how addresses are matched to inserted companies) and
    `Integer#to_s`. */
module RubyInteger {
  import opened Values

  predicate IsDigit(c: char) {
    '0' <= c <= '9'
  }

  predicate AllDigits(s: string) {
    forall i :: 0 <= i < |s| ==> IsDigit(s[i])
  }

  function DigitValue(c: char): nat
    requires IsDigit(c)
  {
    (c as int) - ('0' as int)
  }

  function DigitChar(d: nat): (c: char)
    requires d < 10
    ensures IsDigit(c) && DigitValue(c) == d
  {
    ((('0' as int) + d) as char)
  }

  /** The whitespace Ruby's integer parser skips before a number: space, tab,
      line feed, vertical tab, form feed, carriage return. */
  predicate IsLeadingSpace(c: char) {
    c == ' ' || '\t' <= c <= '\r'
  }

  /** `s` without its leading whitespace. */
  function SkipSpace(s: string): (t: string)
    ensures |t| <= |s| && t == s[|s| - |t|..]
    ensures |t| > 0 ==> !IsLeadingSpace(t[0])
    ensures forall i :: 0 <= i < |s| - |t| ==> IsLeadingSpace(s[i])
  {
    if |s| > 0 && IsLeadingSpace(s[0]) then SkipSpace(s[1..]) else s
  }

  /** The digits of the longest decimal numeral at the start of `s`; a single
      underscore between two digits belongs to the numeral and is dropped. */
  function DigitRun(s: string): (ds: string)
    ensures AllDigits(ds)
    ensures |ds| <= |s|
    ensures |ds| == 0 <==> |s| == 0 || !IsDigit(s[0])
  {
    if |s| == 0 || !IsDigit(s[0]) then []
    else if |s| >= 3 && s[1] == '_' && IsDigit(s[2]) then [s[0]] + DigitRun(s[2..])
    else [s[0]] + DigitRun(s[1..])
  }

  /** The value of a decimal numeral, most significant digit first. */
  function DecimalValue(ds: string): nat
    requires AllDigits(ds)
  {
    if |ds| == 0 then 0 else DecimalValue(ds[..|ds| - 1]) * 10 + DigitValue(ds[|ds| - 1])
  }

  /** `String#to_i`: leading whitespace is skipped, an optional sign is read, then
      the longest decimal numeral; a string without one converts to 0. */
  function ToI(s: string): (n: int)
    ensures |SkipSpace(s)| == 0 ==> n == 0
  {
    var t := SkipSpace(s);
    if |t| > 0 && t[0] == '-' then -(DecimalValue(DigitRun(t[1..])) as int)
    else if |t| > 0 && t[0] == '+' then DecimalValue(DigitRun(t[1..]))
    else DecimalValue(DigitRun(t))
  }

  /** A decimal numeral as `to_i` reads it: digits, with a single underscore
      allowed between two digits. */
  predicate Numeral(p: string) {
    && |p| > 0 && IsDigit(p[0])
    && (|p| == 1 || (p[1] == '_' && Numeral(p[2..])) || (p[1] != '_' && Numeral(p[1..])))
  }

  /** Text that cannot continue a numeral: it does not start with a digit, nor
      with an underscore followed by a digit. */
  predicate EndsNumeral(q: string) {
    |q| == 0 || (!IsDigit(q[0]) && !(q[0] == '_' && |q| >= 2 && IsDigit(q[1])))
  }

  /** The digits of `s`, in order. */
  function DigitsOf(s: string): (ds: string)
    ensures AllDigits(ds)
  {
    if |s| == 0 then [] else (if IsDigit(s[0]) then [s[0]] else []) + DigitsOf(s[1..])
  }

  /** `to_i` on a field: `nil.to_i` is 0. */
  function FieldToI(f: Field): int {
    match f
    case None => 0
    case Some(s) => ToI(s)
  }

  /** `Integer#to_s` for a non-negative integer: no leading zero, no sign. */
  function ShowNat(n: nat): (s: string)
    ensures |s| > 0 && AllDigits(s)
    ensures |s| > 1 ==> s[0] != '0'
  {
    if n < 10 then [DigitChar(n)] else ShowNat(n / 10) + [DigitChar(n % 10)]
  }

  /** `Integer#to_s`. */
  function Show(n: int): string {
    if n < 0 then "-" + ShowNat(-n) else ShowNat(n)
  }

  /** A string of digits is its own numeral. */
  lemma {:induction false} DigitRunOfDigits(ds: string)
    requires AllDigits(ds)
    ensures DigitRun(ds) == ds
  {
    if |ds| > 0 {
      assert |ds| >= 2 ==> ds[1] != '_';
      DigitRunOfDigits(ds[1..]);
    }
  }

  /** Reading back a printed natural number gives the number. */
  lemma {:induction false} DecimalValueOfShowNat(n: nat)
    ensures DecimalValue(ShowNat(n)) == n
  {
    if n >= 10 {
      var s := ShowNat(n);
      DecimalValueOfShowNat(n / 10);
      assert s[..|s| - 1] == ShowNat(n / 10);
    }
  }

  /** Round trip: `n.to_s.to_i == n` for every integer. */
  lemma ToIOfShow(n: int)
    ensures ToI(Show(n)) == n
  {
    var m: nat := if n < 0 then -n else n;
    var digits := ShowNat(m);
    DigitRunOfDigits(digits);
    DecimalValueOfShowNat(m);
    var s := Show(n);
    assert !IsLeadingSpace(s[0]);
    assert SkipSpace(s) == s;
    if n < 0 {
      assert s == "-" + digits;
      assert s[1..] == digits;
      assert ToI(s) == -(DecimalValue(DigitRun(digits)) as int);
    } else {
      assert s == digits;
      assert s[0] != '-' && s[0] != '+';
      assert ToI(s) == DecimalValue(DigitRun(digits));
    }
  }

  /** The numeral read at the start of `p + q` is all of `p` when `q` cannot
      continue it, its underscores dropped. */
  lemma {:induction false} DigitRunOfNumeral(p: string, q: string)
    requires Numeral(p) && EndsNumeral(q)
    ensures DigitRun(p + q) == DigitsOf(p)
  {
    var s := p + q;
    assert s[0] == p[0] && IsDigit(s[0]);
    if |p| == 1 {
      assert s[1..] == q;
      assert |s| >= 3 ==> s[1] == q[0] && s[2] == q[1];
      assert DigitRun(q) == [];
      assert DigitRun(s) == [s[0]] + DigitRun(s[1..]);
      assert DigitsOf(p[1..]) == [];
      assert DigitsOf(p) == [p[0]] + DigitsOf(p[1..]);
    } else if p[1] == '_' {
      var r := p[2..];
      assert Numeral(r);
      assert s[1] == '_' && s[2] == r[0];
      assert s[2..] == r + q;
      DigitRunOfNumeral(r, q);
      assert DigitRun(s) == [s[0]] + DigitRun(r + q);
      assert p[1..][1..] == r;
      assert DigitsOf(p[1..]) == DigitsOf(r);
      assert DigitsOf(p) == [p[0]] + DigitsOf(p[1..]);
    } else {
      var r := p[1..];
      assert Numeral(r);
      assert s[1..] == r + q;
      DigitRunOfNumeral(r, q);
      assert DigitRun(s) == [s[0]] + DigitRun(r + q);
      assert DigitsOf(p) == [p[0]] + DigitsOf(r);
    }
  }

  lemma {:induction false} SkipSpaceThrough(ws: string, t: string)
    requires forall i :: 0 <= i < |ws| ==> IsLeadingSpace(ws[i])
    requires |t| == 0 || !IsLeadingSpace(t[0])
    ensures SkipSpace(ws + t) == t
  {
    if |ws| == 0 {
      assert ws + t == t;
    } else {
      assert (ws + t)[1..] == ws[1..] + t;
      SkipSpaceThrough(ws[1..], t);
    }
  }

  /** `to_i` skips leading whitespace, reads a numeral, and ignores whatever
      text follows the numeral. */
  lemma ToIOfNumeral(ws: string, p: string, q: string)
    requires forall i :: 0 <= i < |ws| ==> IsLeadingSpace(ws[i])
    requires Numeral(p) && EndsNumeral(q)
    ensures ToI(ws + p + q) == DecimalValue(DigitsOf(p))
  {
    assert ws + p + q == ws + (p + q);
    assert (p + q)[0] == p[0];
    DigitRunOfNumeral(p, q);
    UnsignedToI(ws, p + q);
  }

  /** Text without a digit converts to 0. */
  lemma ToIWithoutDigits(s: string)
    requires forall i :: 0 <= i < |s| ==> !IsDigit(s[i])
    ensures ToI(s) == 0
  {
    var t := SkipSpace(s);
    assert forall i :: 0 <= i < |t| ==> t[i] == s[|s| - |t| + i];
  }

  /** Text whose first character after the leading whitespace and an optional
      sign is not a digit converts to 0, whatever follows: "abc123" gives 0. */
  lemma ToIWithoutLeadingDigit(ws: string, sign: string, t: string)
    requires forall i :: 0 <= i < |ws| ==> IsLeadingSpace(ws[i])
    requires |sign| <= 1 && (|sign| == 1 ==> sign[0] == '-' || sign[0] == '+')
    requires |t| == 0 || !IsDigit(t[0])
    requires |sign| == 0 && |t| > 0 ==> !IsLeadingSpace(t[0]) && t[0] != '-' && t[0] != '+'
    ensures ToI(ws + sign + t) == 0
  {
    assert DigitRun(t) == [];
    if |sign| == 1 {
      assert ws + sign + t == ws + ([sign[0]] + t);
      SignedToI(ws, sign[0], t);
    } else {
      assert ws + sign + t == ws + t;
      SkipSpaceThrough(ws, t);
    }
  }

  /** The same after a sign: `-` negates the numeral's value, `+` keeps it. */
  lemma ToIOfSignedNumeral(ws: string, sign: char, p: string, q: string)
    requires forall i :: 0 <= i < |ws| ==> IsLeadingSpace(ws[i])
    requires sign == '-' || sign == '+'
    requires Numeral(p) && EndsNumeral(q)
    ensures ToI(ws + [sign] + p + q)
            == if sign == '-' then -(DecimalValue(DigitsOf(p)) as int) else DecimalValue(DigitsOf(p))
  {
    assert ws + [sign] + p + q == ws + ([sign] + (p + q));
    DigitRunOfNumeral(p, q);
    SignedToI(ws, sign, p + q);
  }

  lemma UnsignedToI(ws: string, t: string)
    requires forall i :: 0 <= i < |ws| ==> IsLeadingSpace(ws[i])
    requires |t| > 0 && IsDigit(t[0])
    ensures ToI(ws + t) == DecimalValue(DigitRun(t))
  {
    SkipSpaceThrough(ws, t);
    assert t[0] != '-' && t[0] != '+';
  }

  lemma SignedToI(ws: string, sign: char, t: string)
    requires forall i :: 0 <= i < |ws| ==> IsLeadingSpace(ws[i])
    requires sign == '-' || sign == '+'
    ensures ToI(ws + ([sign] + t))
            == if sign == '-' then -(DecimalValue(DigitRun(t)) as int) else DecimalValue(DigitRun(t))
  {
    var u := [sign] + t;
    SkipSpaceThrough(ws, u);
    assert u[0] == sign && u[1..] == t;
  }
}

=== FILE: scenarios.dfy ===
/** Runs of the pipeline on the inputs the repository's Ruby specs use, stated
    for any rows of the same shape, and a duplicate-number file decided by the
    row loop's first-wins rule. */
module Scenarios {
  import opened Values
  import opened Records
  import CompanyModel
  import AddressModel
  import DataValidator
  import Reader
  import CsvValidator
  import Creator

  function MakeRow(name: string, number: string, street: string, city: string, postalCode: string, country: string): Row {
    map["name" := name, "registration_number" := number, "street" := street,
        "city" := city, "postal_code" := postalCode, "country" := country]
  }

  lemma NotBlank(s: string)
    requires |s| > 0 && !IsSpace(s[0])
    ensures !Blank(Some(s))
  {
  }

  /** A row whose name and city are both empty reports only the name: the
      address is never checked once the company fails. */
  lemma EmptyNameAndCity(store: CompanyModel.Store)
    ensures var row := MakeRow("", "123456789", "123 Main St", "", "10001", "USA");
            var v := DataValidator.Validate(row, 1, store);
            && v.Invalid?
            && v.error.line == 1
            && CompanyModel.NameBlank in v.error.errors
            && AddressModel.CityBlank !in v.error.errors
  {
    var row := MakeRow("", "123456789", "123 Main St", "", "10001", "USA");
    assert !CompanyModel.NamePresent(DataValidator.CompanyAttributes(row));
    DataValidator.InvalidCompanyHidesAddressMessages(row, 1, store);
  }

  /** A row with every required cell filled is valid against an empty store. */
  lemma FilledRowValid(name: string, number: string, street: string, city: string, postalCode: string, country: string, line: nat)
    requires |name| > 0 && !IsSpace(name[0]) && |name| <= 256
    requires |number| > 0 && !IsSpace(number[0])
    requires |street| > 0 && !IsSpace(street[0])
    requires |city| > 0 && !IsSpace(city[0])
    requires |country| > 0 && !IsSpace(country[0])
    ensures var row := MakeRow(name, number, street, city, postalCode, country);
            DataValidator.Validate(row, line, {})
            == DataValidator.Valid(CompanyAttrs(Some(name), Some(number)),
                                   AddressAttrs(Some(street), Some(city), Some(postalCode), Some(country), Some(number)))
  {
    var row := MakeRow(name, number, street, city, postalCode, country);
    var c := CompanyAttrs(Some(name), Some(number));
    var a := AddressAttrs(Some(street), Some(city), Some(postalCode), Some(country), Some(number));
    assert DataValidator.CompanyAttributes(row) == c;
    assert DataValidator.AddressAttributes(row) == a;
    NotBlank(name); NotBlank(number); NotBlank(street); NotBlank(city); NotBlank(country);
    assert CompanyModel.IsValid(c, {});
    assert AddressModel.IsValid(a, true);
  }

  /** The reference collection of three valid verdicts where the first two
      share a number. */
  lemma ReferenceOfThree(c1: CompanyAttrs, c2: CompanyAttrs, c3: CompanyAttrs,
                         a1: AddressAttrs, a2: AddressAttrs, a3: AddressAttrs)
    requires c1.registrationNumber == c2.registrationNumber != c3.registrationNumber
    ensures var vs := [DataValidator.Valid(c1, a1), DataValidator.Valid(c2, a2), DataValidator.Valid(c3, a3)];
            && Reader.FirstWins(Reader.ValidCompanies(vs)) == [c1, c3]
            && Reader.ValidAddresses(vs) == [a1, a2, a3]
            && Reader.InvalidRows(vs) == []
  {
    var v1, v2, v3 := DataValidator.Valid(c1, a1), DataValidator.Valid(c2, a2), DataValidator.Valid(c3, a3);
    ReferenceOfTwo(c1, c2, a1, a2);
    Reader.ReferenceSnoc([v1, v2], v3);
    assert [v1, v2] + [v3] == [v1, v2, v3];
    var cs := Reader.ValidCompanies([v1, v2, v3]);
    assert cs == [c1, c2] + [c3];
    Reader.FirstWinsSnoc([c1, c2], c3);
    assert Reader.FirstWins([c1, c2]) == [c1];
    assert !Reader.HasKey([c1], c3.registrationNumber);
  }

  /** Any file whose three rows are valid, the first two sharing a number:
      two companies, the first row's kept, and all three addresses. */
  lemma DuplicateNumberKeepsFirstCompany(file: Reader.CsvFile, store: CompanyModel.Store,
                                         c1: CompanyAttrs, c2: CompanyAttrs, c3: CompanyAttrs,
                                         a1: AddressAttrs, a2: AddressAttrs, a3: AddressAttrs)
    requires Reader.StructuralError(file).None?
    requires Reader.Outcomes(file.rows, store)
             == [DataValidator.Valid(c1, a1), DataValidator.Valid(c2, a2), DataValidator.Valid(c3, a3)]
    requires c1.registrationNumber == c2.registrationNumber != c3.registrationNumber
    ensures Reader.Perform(file, store) == Reader.Collected([c1, c3], [a1, a2, a3], [])
  {
    ReferenceOfThree(c1, c2, c3, a1, a2, a3);
    Reader.PerformMatchesReference(file, store);
  }

  /** The reference collection of two valid verdicts: both addresses, and
      the second company only when its number differs from the first's. */
  lemma ReferenceOfTwo(c1: CompanyAttrs, c2: CompanyAttrs, a1: AddressAttrs, a2: AddressAttrs)
    ensures var vs := [DataValidator.Valid(c1, a1), DataValidator.Valid(c2, a2)];
            && Reader.ValidCompanies(vs) == [c1, c2]
            && Reader.FirstWins([c1, c2])
               == (if c1.registrationNumber == c2.registrationNumber then [c1] else [c1, c2])
            && Reader.ValidAddresses(vs) == [a1, a2]
            && Reader.InvalidRows(vs) == []
  {
    var v1, v2 := DataValidator.Valid(c1, a1), DataValidator.Valid(c2, a2);
    var none: seq<DataValidator.Validation> := [];
    assert Reader.ValidCompanies(none) == [] && Reader.ValidAddresses(none) == [] && Reader.InvalidRows(none) == [];
    Reader.ReferenceSnoc(none, v1);
    assert none + [v1] == [v1];
    Reader.ReferenceSnoc([v1], v2);
    assert [v1] + [v2] == [v1, v2];
    var noCompany: seq<CompanyAttrs> := [];
    assert Reader.FirstWins(noCompany) == [];
    Reader.FirstWinsSnoc(noCompany, c1);
    assert noCompany + [c1] == [c1];
    Reader.FirstWinsSnoc([c1], c2);
    assert [c1] + [c2] == [c1, c2];
    assert Reader.HasKey([c1], c2.registrationNumber) <==> c1.registrationNumber == c2.registrationNumber;
  }

  /** Two valid rows with different registration numbers: both companies and
      both addresses, in file order, and no errors. */
  lemma TwoValidRows(file: Reader.CsvFile, store: CompanyModel.Store,
                     c1: CompanyAttrs, c2: CompanyAttrs, a1: AddressAttrs, a2: AddressAttrs)
    requires Reader.StructuralError(file).None?
    requires Reader.Outcomes(file.rows, store) == [DataValidator.Valid(c1, a1), DataValidator.Valid(c2, a2)]
    requires c1.registrationNumber != c2.registrationNumber
    ensures Reader.Perform(file, store) == Reader.Collected([c1, c2], [a1, a2], [])
  {
    ReferenceOfTwo(c1, c2, a1, a2);
    Reader.PerformMatchesReference(file, store);
  }

  /** A file whose only row is invalid: no companies, no addresses, and that
      row's error. */
  lemma OneInvalidRow(file: Reader.CsvFile, store: CompanyModel.Store, v: DataValidator.Validation)
    requires Reader.StructuralError(file).None?
    requires Reader.Outcomes(file.rows, store) == [v] && v.Invalid?
    ensures Reader.Perform(file, store) == Reader.Collected([], [], [v.error])
  {
    var none: seq<DataValidator.Validation> := [];
    assert Reader.ValidCompanies(none) == [] && Reader.ValidAddresses(none) == [] && Reader.InvalidRows(none) == [];
    Reader.ReferenceSnoc(none, v);
    assert none + [v] == [v];
    assert Reader.FirstWins([]) == [];
    Reader.PerformMatchesReference(file, store);
  }
}

=== FILE: values.dfy ===
/** Values as the import pipeline handles them: cells and attributes that may be
    Ruby's `nil`, and the `blank?` test that Rails' presence validation applies. */
module Values {

  datatype Option<+T> = None | Some(value: T)

  /** A CSV cell or record attribute; `None` stands for Ruby's `nil`. */
  type Field = Option<string>

  /** The characters of the class `[[:space:]]` on Unicode strings, which is what
      `String#blank?` tests against: tab, line feed, vertical tab, form feed,
      carriage return, space, and the Unicode separators. */
  predicate IsSpace(c: char) {
    || '\t' <= c <= '\r'
    || c == ' '
    || c == '\U{85}'
    || c == '\U{A0}'
    || c == '\U{1680}'
    || '\U{2000}' <= c <= '\U{200A}'
    || c == '\U{2028}'
    || c == '\U{2029}'
    || c == '\U{202F}'
    || c == '\U{205F}'
    || c == '\U{3000}'
  }

  /** `String#blank?`: empty or whitespace only. */
  predicate IsBlankString(s: string) {
    forall i :: 0 <= i < |s| ==> IsSpace(s[i])
  }

  /** `Object#blank?` on a field: `nil` is blank, a string is blank when it is
      empty or whitespace only. */
  predicate Blank(f: Field) {
    f.None? || IsBlankString(f.value)
  }

  /** The length a Rails length validation measures: characters of the string,
      and 0 for `nil` (whose `to_s` is the empty string). */
  function CharLength(f: Field): nat {
    match f
    case None => 0
    case Some(s) => |s|
  }

  /** One validation rule of a model: whether the record passes it, and the
      full message it adds to `errors` when it does not. */
  datatype Rule = Rule(passes: bool, message: string)

  /** `errors.full_messages` after `valid?`: the rules run in declaration
      order and each failing rule adds its own message. */
  function FullMessages(rules: seq<Rule>): (r: seq<string>)
    ensures |r| <= |rules|
    ensures |r| == 0 <==> forall i :: 0 <= i < |rules| ==> rules[i].passes
    ensures forall m :: m in r <==> exists i :: 0 <= i < |rules| && !rules[i].passes && rules[i].message == m
  {
    if |rules| == 0 then []
    else
      var p := rules[..|rules| - 1];
      assert forall i :: 0 <= i < |p| ==> p[i] == rules[i];
      FullMessages(p) + (if rules[|rules| - 1].passes then [] else [rules[|rules| - 1].message])
  }

  /** With four rules whose messages differ, a message is listed exactly when
      its rule fails. */
  lemma FourRuleMessages(a: Rule, b: Rule, c: Rule, d: Rule)
    requires a.message != b.message && a.message != c.message && a.message != d.message
    requires b.message != c.message && b.message != d.message && c.message != d.message
    ensures var r := FullMessages([a, b, c, d]);
            && (a.message in r <==> !a.passes)
            && (b.message in r <==> !b.passes)
            && (c.message in r <==> !c.passes)
            && (d.message in r <==> !d.passes)
  {
    var rules := [a, b, c, d];
    assert rules[0] == a && rules[1] == b && rules[2] == c && rules[3] == d;
  }

  /** Four rules list nothing exactly when all pass, and only their own
      messages. */
  lemma FourRuleBounds(a: Rule, b: Rule, c: Rule, d: Rule)
    ensures var r := FullMessages([a, b, c, d]);
            && (|r| == 0 <==> a.passes && b.passes && c.passes && d.passes)
            && (forall m :: m in r ==> m == a.message || m == b.message || m == c.message || m == d.message)
            && |r| <= 4
  {
    var rules := [a, b, c, d];
    assert rules[0] == a && rules[1] == b && rules[2] == c && rules[3] == d;
  }

  /** Concatenation regroups freely. */
  lemma AppendAssociative<T>(x: seq<T>, y: seq<T>, z: seq<T>)
    ensures (x + y) + z == x + (y + z)
  {
  }

  /** The messages of two rule lists run one after the other are the first
      list's messages followed by the second's: order and count are kept. */
  lemma {:induction false} FullMessagesAppend(r1: seq<Rule>, r2: seq<Rule>)
    ensures FullMessages(r1 + r2) == FullMessages(r1) + FullMessages(r2)
  {
    if |r2| == 0 {
      assert r1 + r2 == r1;
    } else {
      var p := r2[..|r2| - 1];
      var last := r2[|r2| - 1];
      var tail := if last.passes then [] else [last.message];
      assert (r1 + r2)[..|r1 + r2| - 1] == r1 + p;
      assert (r1 + r2)[|r1 + r2| - 1] == last;
      FullMessagesAppend(r1, p);
      AppendAssociative(FullMessages(r1), FullMessages(p), tail);
    }
  }
}
